=== FILE: README.md ===
# variants: a Dafny model of the rule-resolution engine

`#[variants(...)]` is a Rust attribute macro. It takes one struct and emits one struct per
*variant* (context). In each variant a declared field is Required (kept at its type), Optional
(wrapped in `Option`) or Excluded (left out). The rules come from the macro's arguments:

- bare variant names (`Draft`);
- fluent contexts (`Create: requires(id).optional(all_fields().except(password)).default(exclude)`);
- directives (`prefix = "..."`, `suffix`, `default`, `groups = auth(user_id, token)`,
  `optional_attrs`, `required_attrs`, `build_base`, `optional_base`);
- field attributes that add attributes conditionally (`#[when_optional(...)]`,
  `#[when_required(...)]`, `#[when_base(...)]`).

This project models the engine that turns those rules into output, as pure Dafny functions over
immutable datatypes, and proves the laws the macro relies on. The pipeline, module by module:

| module | what it models |
|---|---|
| `Wrappers` | `Option` and `Result`. A `syn::Error` becomes `Err(message)`. |
| `Syntax` | The slice of the Rust syntax tree the macro inspects: paths, calls, method calls, casts, literals, tuples and attribute arrays. Also types, with the `Option` test "last path segment is `Option`". Attributes are opaque tokens. |
| `Rules` | `FieldRef`, `GroupFieldRef`, `FluentContext`, `DefaultBehavior` and `VariantList`. Also the matching law `matches_field`, and the context's default, which else falls back to the global default, which else falls back to Optional. |
| `Parser` | `FluentContextParser` (single call and method chain, including the field-list grammar), the `groups` directive, and `parse_mixed_args`, with every error message. |
| `ParserLaws` | A renderer from contexts back to expressions, the parse/render round trip, and laws about chains, directives and names. |
| `Expander` | `expand_group_field_refs` and `expand_group_field_references`. |
| `Validator` | `validate_fluent_contexts`, as a specification (a set of diagnostics) and as loops over maps that mirror the code's mention map. |
| `Classifier` | The field-attribute split and `process_field`'s sorting of a field into `required_in` / `optional_in` / `never_in`, with per-context type overrides. |
| `Resolver` | Generation of the base struct and the variant structs (names, attributes, types), and the unknown-variant check. |
| `Session` | `expand_context_variants` and `variants`, end to end. |

Diagnostics that `emit_error!` reports are returned as a set of `Diagnostic` values. The macro
fails with `Rejected` when that set is not empty and no later step fails. A later failure, in
`process_field` or in the unknown-variant check, gives `Failed`, which carries the diagnostics
collected so far.

`parse_method_chain` parses the first call of a chain on its own and copies only the three lists
of that base call (src/lib.rs:244-247). A `default(..)` written as the first call of a chain is
therefore lost (`ParserLaws.BaseDefaultDropped`, `ParserLaws.ChainWithoutDefaultStep`).
`test_optional_base_attrs.rs` expects `optional_base` to put
`when_optional` attributes and the `optional_attrs` list on the base struct. The code does not do
that, and neither does the model (`Resolver.BaseField`).

## Model

| member | source | states |
|---|---|---|
| Rules.Denotation | src/lib.rs:102-119 | The matching law, written with set operations, agrees with `matches_field` on every name. A literal or typed name matches itself. `all_fields(E)` matches exactly the declared fields outside `E`. `g.except(E)` matches the members of group `g` outside `E`, and nothing when `g` is undefined. |
| Rules.VariantType | src/lib.rs:122-127 | A reference carries a type override exactly when it is a `name as Type` reference. |
| Rules.FirstMatch | src/lib.rs:667-704 | A list has a first matching reference exactly when some reference in it matches. That first match is taken from the list. |
| Rules.CountMatches | src/lib.rs:1272-1296 | The number of references in a list that match a field. It is at most the list's length, and it is zero exactly when no reference matches. |
| Rules.CountMatchesAppend | src/lib.rs:1272-1296 | Counting matches over two lists joined together adds the two counts. |
| Syntax.GetIdent | src/lib.rs:298-305 | An expression is a plain identifier exactly when it is a one-segment path, and the identifier is that segment. |
| Syntax.Optionalize | src/lib.rs:566-575 | Wrapping yields an `Option` type. An `Option` type is left as it is. Any other type is wrapped once and changes. |
| Syntax.OptionalizeIdempotent | src/lib.rs:566-575 | Wrapping twice gives the same type as wrapping once: a field is never wrapped in `Option` twice. |
| Parser.ParseIdents | src/lib.rs:327-395 | An identifier list parses exactly when every element is a plain identifier. The result has the same names in the same order. Otherwise the call's own error message is returned. |
| Parser.ParseFieldList | src/lib.rs:295-406 | A field list parses exactly when every argument does, and the references keep argument order. |
| Parser.BehaviorNamed | src/lib.rs:205-211 | A default name is accepted exactly when it is `required`, `optional` or `exclude`, and the behaviour is spelled that way. |
| Parser.ParseDefaultArg | src/lib.rs:197-211 | `default(..)` is accepted exactly when it has one plain-name argument among `required`, `optional` and `exclude`. The behaviour it sets is spelled like that argument. |
| Parser.ApplyCall | src/lib.rs:260-287 | A chained call succeeds only for `requires`, `optional`, `excludes` and `default`. A list call succeeds exactly when its argument list parses. `default` succeeds exactly when its argument list parses to one accepted behaviour name. Each list call appends its references to its own list and changes nothing else. `default` sets only the default behaviour. |
| Parser.ParseFunctionCall | src/lib.rs:171-217 | A single call yields a context with the given name. |
| Parser.Unchain | src/lib.rs:219-243 | Taking a chain apart ends with the outermost call, with its own arguments. |
| Parser.ApplySteps | src/lib.rs:258-290 | Applying the chained calls in order keeps the context's name. |
| Parser.ParseMethodChain | src/lib.rs:219-293 | A method chain yields a context named after its key. |
| Parser.ParseFluentExpr | src/lib.rs:155-169 | A context expression yields a context named after its key. Anything other than a call or a method call is rejected. |
| Parser.ParseGroupArgs | src/lib.rs:1059-1118 | A group's argument list parses exactly when every argument does, keeping order. |
| Parser.ParseSingleGroup | src/lib.rs:1046-1122 | A group definition parses exactly when its callee is a plain identifier and every argument parses. The group is named by that identifier, and its references are the parse of its arguments. |
| Parser.InsertGroups | src/lib.rs:996-1008 | Inserting a tuple of group definitions succeeds exactly when every element is a well-formed group call. The keys afterwards are the earlier keys plus the defined names. A name the tuple defines more than once keeps its last definition, as `HashMap::insert` overwrites. Earlier keys the tuple does not define keep their value. |
| Parser.ParseGroupsExpression | src/lib.rs:990-1016 | A `groups` value is accepted exactly when it is a well-formed group call or a tuple of them. A single call gives a one-group map. A tuple gives one group per defined name, each holding the last definition of that name. |
| Parser.ParseStringLit | src/lib.rs:869-882 | `prefix` and `suffix` accept exactly a string literal, and the value is that literal's text. |
| Parser.ParseGlobalDefault | src/lib.rs:883-902 | `default = ..` accepts exactly a string literal or a plain identifier spelling `required`, `optional` or `exclude`, and the behaviour is the one spelled. A multi-segment path and any other expression fail with their own messages. |
| Parser.ParseBoolValue | src/lib.rs:917-952 | `build_base` and `optional_base` read true exactly from the literal `true` or the identifier `true`, and false exactly from the literal `false` or the identifier `false`. Any other identifier fails with "expected 'true' or 'false'". A multi-segment path fails with its own message. |
| Parser.ParseAttributeArray | src/lib.rs:1340-1385 | The attribute-list directives accept exactly an array of attributes, and the value is that array's attributes. |
| Parser.KeyOf | src/lib.rs:866-958 | A name is a directive key exactly when it is one of `prefix`, `suffix`, `default`, `groups`, `optional_attrs`, `required_attrs`, `build_base` and `optional_base`, and the key is the one spelled that way. |
| Parser.KeysRecognised | src/lib.rs:866-958 | Each of the eight directive keys is recognised from its own spelling. |
| Parser.ApplyDirective | src/lib.rs:866-958 | A directive never changes the variants or the contexts. It succeeds exactly when its value parses for its key. Each key then sets exactly its own variable to the parsed value and leaves every other setting alone. |
| Parser.ApplyItem | src/lib.rs:860-966 | A bare name adds a variant. A context item adds a variant of its name and appends the context its chain parses to. A directive adds neither. Group references are left for later. |
| Parser.ParseItems | src/lib.rs:860-966 | After all items, the variants are the bare and context names in order, and the contexts are the parses of the context items' chains, in order. |
| Parser.NamesAppend | src/lib.rs:962-964 | The names of concatenated contexts are the concatenated names. |
| Parser.ParseMixedArgs | src/lib.rs:814-986 | Accepted arguments name at least one variant. The variants are listed in argument order, and the contexts are the parsed chains of the context items in argument order. Resolved groups start empty, and the group definitions are kept unresolved. |
| ParserLaws.ParseIdentsOfIdents | src/lib.rs:327-395 | A rendered identifier list parses back to the same names. |
| ParserLaws.ParseRenderRef | src/lib.rs:295-406 | Every field reference, once rendered as an expression, parses back to itself. |
| ParserLaws.ParseRenderRefs | src/lib.rs:295-406 | Every rendered reference list parses back to itself. |
| ParserLaws.ParseSingleName | src/lib.rs:298-308 | A lone identifier argument parses to a plain field reference. |
| ParserLaws.ListCallsParse | src/lib.rs:171-217 | The three rendered list calls parse one after the other into the context's three lists. |
| ParserLaws.TwoSteps | src/lib.rs:258-290 | A two-call chain applies its calls left to right. |
| ParserLaws.UnchainRendered | src/lib.rs:219-257 | A rendered context unchains into its base call and its remaining calls, in order. |
| ParserLaws.RoundTrip | src/lib.rs:155-293 | Every context, rendered as `requires(..).optional(..).excludes(..)` with an optional trailing `.default(..)`, parses back to exactly that context. |
| ParserLaws.StepsCollect | src/lib.rs:258-290 | After a chain's calls, each list is the starting list followed by the arguments of the calls of that name, in chain order. The default is the one named by the last `default(..)` call, else the starting one. |
| ParserLaws.CallContribution | src/lib.rs:260-287 | One call contributes to its own list, or to the default, exactly what `ParserLaws.StepsCollect` counts for it. |
| ParserLaws.ChainWithoutDefaultStep | src/lib.rs:219-293 | Whatever the base call of a chain is, the parsed context has no default unless a later call is `default(..)`. |
| ParserLaws.UnchainRebuilds | src/lib.rs:219-243 | Taking a chain apart loses nothing: rebuilding the base call and the calls in order gives the chain back. |
| ParserLaws.UnchainOfRechain | src/lib.rs:219-243 | Any base call followed by at least one call is taken apart into exactly those pieces. |
| ParserLaws.StepsAccumulate | src/lib.rs:258-290 | Chained calls only extend the three lists, keeping what came before as a prefix. The default changes only when a `default` call is in the chain. |
| ParserLaws.BaseDefaultDropped | src/lib.rs:244-247 | A `default(required)` in the base call of a chain is lost, while the same `default` as a later call is kept. |
| ParserLaws.UnknownCallFails | src/lib.rs:284-287 | A chain with any call other than the four known ones fails. |
| ParserLaws.DefaultArgumentLaw | src/lib.rs:267-282 | On any context, `default(..)` succeeds exactly when it has one plain argument among `required`, `optional` and `exclude`. |
| ParserLaws.GroupRoundTrip | src/lib.rs:1046-1122 | A rendered group definition parses back to its name and references. |
| ParserLaws.AllFieldsArgumentsIgnoredInGroups | src/lib.rs:327-341 | In a group definition `all_fields(x)` drops its argument. In a context the same text makes `x` an exception. |
| ParserLaws.ApplyItemFrame | src/lib.rs:860-966 | An item changes no directive setting other than its own key. |
| ParserLaws.ApplyDirectiveFrame | src/lib.rs:866-958 | A directive changes no other directive's setting. |
| ParserLaws.ItemsKeepUnset | src/lib.rs:860-966 | A setting no item names keeps its value through all the items. |
| ParserLaws.DirectiveSets | src/lib.rs:866-958 | A directive succeeds exactly when its value parses for its key, and then its key holds that value, whatever it held before. |
| ParserLaws.LastDirectiveWins | src/lib.rs:866-958 | When a key is set several times, its final value is the one the last directive for it spells. |
| ParserLaws.DirectiveDefaults | src/lib.rs:815-824 | With no directive: no prefix, suffix or global default, no groups, no extra attributes, `build_base` true and `optional_base` false. |
| ParserLaws.UnknownDirectiveFails | src/lib.rs:955-957 | Any `key = value` with an unknown key makes parsing fail. |
| ParserLaws.ContextNamesAreVariantNames | src/lib.rs:962-964 | Every context name is also one of the variant names. |
| ParserLaws.ContextsAreVariants | src/lib.rs:962-964 | Every context of accepted arguments is named by a variant. |
| ParserLaws.NoVariantsFails | src/lib.rs:969-971 | Arguments made only of directives are rejected. |
| ParserLaws.NoNamesInDirectives | src/lib.rs:866-958 | Directives contribute no variant names. |
| Expander.Without | src/lib.rs:1030-1036 | Removing exceptions keeps exactly the names outside the exception list and never lengthens the list. |
| Expander.WithoutAppend | src/lib.rs:1030-1036 | Removing exceptions distributes over concatenation, so order is kept. |
| Expander.WithoutNothing | src/lib.rs:1030-1036 | With no exceptions every declared field is kept, in order. |
| Expander.ExpandGroupFieldRefs | src/lib.rs:1020-1043 | A group's fields are exactly the literal names and the declared fields outside each `all_fields` exception list. |
| Expander.ExpandGroupFieldRefsAppend | src/lib.rs:1020-1043 | A group's expansion is the in-order concatenation of what each reference contributes. |
| Expander.GroupNamesAreDeclaredOrLiteral | src/lib.rs:1020-1043 | Every name in a resolved group is a declared field left by some `all_fields` exception list, or a name written literally in the group. |
| Expander.ExpandGroups | src/lib.rs:1137-1141 | Every defined group, and no other, is resolved. |
| Expander.ExpandRefs | src/lib.rs:1143-1180 | Expanding a context list succeeds exactly when no `g.except(..)` names an undefined group. Afterwards no group reference is left. |
| Expander.ExpandKeepsMeaning | src/lib.rs:1143-1180 | After expansion a field is matched by the list exactly when some original reference denoted it. A plain name that is a group stands for its members. |
| Expander.ExpandKeepsUntouched | src/lib.rs:1159-1166 | Typed references and `all_fields(..)` references survive expansion unchanged, in their original order. |
| Expander.GroupNameShadowsField | src/lib.rs:1150-1158 | A plain name that is also a group name expands to the group's members, even when a field has that name. |
| Expander.ExpandContext | src/lib.rs:1143-1262 | Expanding a context succeeds exactly when all three of its lists expand. It keeps the name and default and leaves no group reference. |
| Expander.ExpandContexts | src/lib.rs:1143-1262 | All contexts expand or the expansion fails. The contexts keep their order and their count. |
| Expander.ExpandGroupFieldReferences | src/lib.rs:1133-1264 | On success the resolved groups are added, each context is replaced by its expansion, and nothing else in the configuration changes. |
| Expander.ExpandRefsOk | src/lib.rs:1143-1180 | A list expands exactly when every group its `g.except(..)` references name is defined. |
| Expander.ExpandContextOk | src/lib.rs:1143-1262 | A context expands exactly when every group that a `g.except(..)` in any of its three lists names is defined. |
| Expander.ExpansionSucceeds | src/lib.rs:1133-1264 | The expansion succeeds exactly when every `g.except(..)` of every context names a group that is already resolved or defined by the `groups` directive. |
| Expander.UndefinedGroupFails | src/lib.rs:1133-1264 | A `g.except(..)` naming a group that is neither defined nor resolved stops the expansion, in whichever list of whichever context it stands. |
| Classifier.InnerAttr | src/lib.rs:752-771 | A marker attribute yields its inner attribute exactly when written as a list that parses as an attribute. |
| Classifier.SplitAttrs | src/lib.rs:645-665 | The split succeeds exactly when every marker attribute reads. It sorts `when_optional`, `when_required` and `when_base` into their lists and keeps all other attributes, each in order. |
| Classifier.SplitAttrsPartitions | src/lib.rs:645-665 | Every attribute ends up in exactly one of the four lists: the three marker lists and the kept list. |
| Classifier.PlainKeepsOthers | src/lib.rs:660-664 | The kept attributes are exactly the non-marker ones. |
| Classifier.Explicit | src/lib.rs:667-704 | A context is recorded under a list when that list of the context matches the field. |
| Classifier.Defaulted | src/lib.rs:706-724 | A context is recorded under its fallback when none of its lists matches the field. |
| Classifier.ProcessField | src/lib.rs:632-741 | Processing a field fails exactly when a marker attribute does not read. It keeps the field's name and type, records whether the type is an `Option`, and keeps the non-marker and `when_base` attributes. |
| Classifier.LandsMembership | src/lib.rs:667-724 | A context name is recorded under a fate exactly when some context with that name matches the field in that list, or does not mention it and falls back to that fate. |
| Classifier.LandsAt | src/lib.rs:667-724 | With distinct context names, a context is recorded under a fate exactly when its own rules put it there. |
| Classifier.LandsCount | src/lib.rs:667-724 | A name is recorded under a fate at most as often as contexts carry that name. No context is recorded both for a mention and for its fallback. |
| Classifier.LandsOnce | src/lib.rs:667-724 | With distinct context names, a context's name is recorded under a fate once when its own rules put it there, and not at all otherwise. |
| Classifier.UnmentionedLandsOnce | src/lib.rs:706-724 | With distinct context names, a context that does not mention the field records it under exactly one fate: the context default, else the global default, else Optional. |
| Classifier.InsertOverridesEffect | src/lib.rs:670-703 | One context's pass leaves that context's own override as its entry, when it has one, and changes no other context's entry. The override comes from the first matching reference of each list, and a later list overwrites an earlier one in the order required, optional, excluded. |
| Classifier.VariantTypesAbsent | src/lib.rs:667-704 | A name that is no context's name never gets a type override. |
| Classifier.VariantTypesAt | src/lib.rs:667-704 | With distinct context names, a context's type override is the one its own lists give. |
| Validator.Render | src/lib.rs:1300-1308 | A conflict lists one tag per mention. |
| Validator.RenderOrder | src/lib.rs:1273-1308 | The tags come in the order the three loops record them: all `required` mentions first, then the `optional` ones, then the `excluded` ones. |
| Validator.MentionsProduct | src/lib.rs:1272-1296 | A list mentions a field once per matching reference and once per declaration of that field name. |
| Validator.MentionsAppend | src/lib.rs:1272-1296 | Mentions over two lists joined together add up. |
| Validator.MentionsPositive | src/lib.rs:1272-1296 | A declared field has a mention exactly when some reference matches it. |
| Validator.Unmentioned | src/lib.rs:1314-1317 | The reported missing fields are exactly the declared fields that no list of the context matches. |
| Validator.UnmentionedAppend | src/lib.rs:1314-1317 | The missing fields keep declaration order. |
| Validator.SuggestionSingleField | src/lib.rs:1320-1323 | With one missing field the hint names that field in each of the four suggested calls. |
| Validator.MentionCount | src/lib.rs:1272-1296 | For a field declared once, its mentions are the sum of the matching references in the three lists. |
| Validator.NoMentionsIffUnmentioned | src/lib.rs:1272-1317 | A declared field has no mention exactly when no list of the context matches it. |
| Validator.ConflictIff | src/lib.rs:1300-1308 | For a field declared once, a conflict is reported exactly when more than one reference across the three lists matches it. |
| Validator.CoverageLaw | src/lib.rs:1310-1334 | A missing-fields report is made exactly when the context and the arguments set no default and some declared field is unmentioned. The report lists those fields. |
| Validator.DuplicateInOneList | src/lib.rs:1272-1308 | Naming a field twice in the same list is reported as a conflict, `required, required`. |
| Validator.CleanContext | src/lib.rs:1267-1337 | If a context raises no diagnostic, a field declared once is matched by at most one reference. If it is matched by none, a default exists. |
| Validator.AddRefMentions | src/lib.rs:1273-1278 | One reference adds one mention of its tag to every declared field it matches, once per declaration, and leaves the other fields alone. |
| Validator.AddMentions | src/lib.rs:1272-1296 | One list's pass adds exactly the list's mentions to each field's tally. |
| Validator.MentionMap | src/lib.rs:1270-1296 | The mention map holds exactly the declared fields some list matches, each with its mention tally. |
| Validator.Conflicts | src/lib.rs:1300-1308 | Conflicts are reported for exactly the fields mentioned more than once. |
| Validator.MissingFields | src/lib.rs:1313-1317 | The fields missing from the map are the unmentioned declared fields, in order. |
| Validator.ConflictsAgree | src/lib.rs:1300-1308 | The conflicts read off the map are the specified conflicts. |
| Validator.ValidateContext | src/lib.rs:1268-1336 | The loop over one context emits exactly the specified diagnostics for it. |
| Validator.ValidateFluentContexts | src/lib.rs:1267-1337 | Validation emits exactly the union of every context's diagnostics. |
| Validator.DiagnosticsMembership | src/lib.rs:1267-1337 | A diagnostic is emitted exactly when some context emits it. |
| Resolver.FinalFate | src/lib.rs:545-557 | A field is excluded from a variant exactly when that variant is in its `never_in`. Otherwise it is required exactly when the variant is in `required_in` and not in `optional_in`. |
| Resolver.VariantFieldType | src/lib.rs:560-575 | A required field has the type in effect. An optional one is wrapped unless the type in effect or the declared type is already an `Option`. |
| Resolver.VariantField | src/lib.rs:541-599 | A field is left out exactly when excluded. Otherwise its attributes are the kept ones, then its `when_required` or `when_optional` ones, then the arguments' `required_attrs` or `optional_attrs`, chosen by its fate. |
| Resolver.VariantFields | src/lib.rs:541-600 | A variant has exactly the non-excluded fields, as their per-field results, and never more fields than were declared. |
| Resolver.VariantFieldsAppend | src/lib.rs:541-600 | A variant's fields keep declaration order: the fields of joined declaration lists are the fields of each part, one after the other. |
| Resolver.VariantFieldsSingle | src/lib.rs:541-600 | One declaration contributes its field, unless the variant excludes it. |
| Resolver.VariantName | src/lib.rs:533-537 | A variant's struct name starts with the prefix, has the variant name in the middle and ends with the suffix. Prefix and suffix are empty by default, so with neither set the name is the variant's own. |
| Resolver.VariantNameInjective | src/lib.rs:533-537 | Under one prefix and suffix, different variants get different struct names. |
| Resolver.BaseField | src/lib.rs:507-522 | A base field keeps its attributes followed by its `when_base` ones. With `optional_base` its type is wrapped only when it is not already an `Option`. |
| Resolver.BaseFields | src/lib.rs:507-522 | The base struct has every declared field, in order. |
| Resolver.StructAttrs | src/lib.rs:494-504 | The struct attributes that are copied are exactly those other than `variants`. |
| Resolver.Generate | src/lib.rs:494-628 | A base struct is emitted exactly when `build_base` holds. There is one struct per variant, in variant order. |
| Resolver.Unknown | src/lib.rs:476-492 | Finds a recorded context name that is not a variant exactly when one exists. |
| Resolver.CheckKnownVariants | src/lib.rs:476-492 | The check passes exactly when every name recorded in every field's three lists is a variant. |
| Resolver.FatePrecedence | src/lib.rs:541-557 | With distinct context names, a field's fate in a context follows precedence: excluded over optional over required. Otherwise it takes the context's fallback of its own default, else the global default, else Optional. |
| Resolver.EffectiveTypeOfContext | src/lib.rs:560-564 | With distinct context names, the type in effect for a context is its own override, else the declared type. |
| Resolver.BareVariantOptional | src/lib.rs:550-557 | A variant that no context names keeps every field, as Optional of the declared type with optional attributes, whatever the global default says. |
| Resolver.BaseAttrsStayOnBase | src/lib.rs:578-599 | `when_base` attributes have no effect on any variant's field. |
| Resolver.OptionFieldKeepsOverride | src/lib.rs:566-575 | An `Option` field with a non-`Option` override in an optional list keeps the bare override type. |
| Resolver.LandsAreContexts | src/lib.rs:667-724 | Every name recorded for a field is the name of a context. |
| Resolver.KnownVariantsPass | src/lib.rs:476-492 | When every context name is a variant, the unknown-variant check passes. |
| Session.FieldNames | src/lib.rs:458-461 | The field names are the declared names, in order. |
| Session.ProcessFields | src/lib.rs:470-473 | Every field is processed, or the first failure stops the macro. |
| Session.ExpandContextVariants | src/lib.rs:437-629 | Enums and unions, and tuple and unit structs, are rejected with their messages. Output is produced only for named-field structs whose group expansion succeeds. |
| Session.Variants | src/lib.rs:792-811 | An argument error stops the macro. Otherwise the parsed arguments drive the expansion. |
| Session.ExpansionKeepsNames | src/lib.rs:1133-1264 | Group expansion keeps context names, variants and the global default. |
| Session.UnknownVariantNeverFails | src/lib.rs:476-492 | When contexts are variants, the macro fails only at group expansion or at a field attribute, never at the unknown-variant check. |
| Session.ParsedContextsAreVariants | src/lib.rs:962-964 | Parsed arguments always meet that condition. |
| Session.GeneratedFieldFate | src/lib.rs:466-599 | With distinct context names, in generated output a field declared once is matched in each context by at most one reference, which fixes its fate. If no reference matches, a default exists and decides. |

## Left out

- Repeated context names: the argument parser accepts two contexts with the same name (src/lib.rs:962-964), and the classifier then records that name once per context. The per-name laws (`Classifier.LandsAt`, `Classifier.LandsOnce`, `Classifier.UnmentionedLandsOnce`, `Classifier.VariantTypesAt`, `Resolver.FatePrecedence`, `Resolver.EffectiveTypeOfContext`, `Session.GeneratedFieldFate`) assume distinct names. With a repeated name the macro would emit two structs of the same name anyway. `Classifier.LandsMembership` and `Classifier.LandsCount` cover the general case.
- Token handling: the `proc_macro` token streams and `syn`'s own parsing of the argument list into items (src/lib.rs:826-858) are not modelled. Arguments arrive as `MixedArg` values, and a `syn` parse error is not represented.
- Output tokens: `quote!` output, spans and `end_span` placement are not modelled. Generated structs are data (`Resolver.Expansion`). Visibility, generics and where clauses pass through unchanged and are not represented.
- Diagnostics: `proc_macro_error`'s diagnostic mechanics are not modelled. Diagnostics are a set, because the code walks a `HashMap` and their order is unspecified. Their `help`/`label` text beyond `Validator.Message` is not modelled.
- Attribute internals: the inside of attributes is opaque. `parse_attribute_array`'s per-element errors ("expected attribute name", "expected attribute") are not modelled, since an attribute array arrives already read. A `when_*` marker's inner content arrives as an already-read `Result`.
- `ParseFieldRef`, `ParseGroupArg`, `ExpandRef`, `Fate` and `EffectiveType` carry no contract of their own. Their results are stated by `ParserLaws.RoundTrip`, `ParserLaws.GroupRoundTrip`, `Parser.ParseFieldList`, `Parser.ParseGroupArgs`, `Expander.ExpandKeepsMeaning`, `Expander.ExpandRefsOk` and `Resolver.FatePrecedence`.
- Session.ExpandContextVariants: "context_variants does not support tuple structs" in `process_field` (src/lib.rs:636) is not modelled. A named-field struct always has field names, so that branch cannot be reached.
- Session.ExpandContextVariants: the contract states the error cases and the shape of success. The order of checks is stated by the definition and by `Session.UnknownVariantNeverFails` and `Session.GeneratedFieldFate`, not by a single postcondition.
- Parser.ParseFunctionCall, Parser.ParseMethodChain, Parser.ParseFluentExpr: these contracts state only that the context keeps its name. Their content is stated by `ParserLaws.RoundTrip`, `ParserLaws.StepsCollect`, `ParserLaws.ChainWithoutDefaultStep`, `ParserLaws.BaseDefaultDropped` and `ParserLaws.UnknownCallFails`.
- Parser.Unchain, Parser.ApplySteps: their contracts state only the last call and the kept name. `ParserLaws.UnchainRebuilds`, `ParserLaws.UnchainOfRechain` and `ParserLaws.StepsCollect` state what they compute.
- Runtime behaviour: serde serialisation of the generated structs is runtime behaviour of the generated code, not of the macro.
- `tests/migration_test.rs` uses a `context_variants` macro and `ctx_*` attributes that src/lib.rs does not define.
- Identifier text: identifiers are strings. Rust's rules for what an identifier may contain are not checked.

=== FILE: classifier.dfy ===
/** `process_field` (src/lib.rs:632-740): the per-field classification. Every
    context decides whether the field is required, optional or excluded in it,
    from the context's explicit lists or, when the field is not mentioned, from
    the context's or the global default. The field's own `when_*` attributes are
    sorted out at the same time. */
module Classifier {
  import opened Wrappers
  import opened Syntax
  import opened Rules

  // ---------------------------------------------------------------------------
  // Field attributes

  /** The shape of an attribute's content: a parenthesised list, whose content
      either reads as one inner attribute or fails with the parser's message, or
      anything else (`#[x]`, `#[x = ..]`). */
  datatype Meta = ListMeta(content: Result<Attr>) | OtherMeta

  /** An attribute written on a field: its path, the attribute itself, and its
      content. */
  datatype FieldAttr = FieldAttr(path: seq<string>, attr: Attr, meta: Meta)

  /** A field of the annotated struct. */
  datatype FieldDecl = FieldDecl(name: string, ty: Ty, attrs: seq<FieldAttr>)

  /** `is_macro_attr`: the attribute's path is exactly the one identifier. */
  predicate IsMacroAttr(a: FieldAttr, name: string) {
    a.path == [name]
  }

  /** Whether an attribute is one of the three conditional markers. */
  predicate IsMarker(a: FieldAttr) {
    IsMacroAttr(a, "when_optional") || IsMacroAttr(a, "when_required") || IsMacroAttr(a, "when_base")
  }

  /** `parse_ctx_attr_attribute`: the inner attribute of a list attribute. */
  function InnerAttr(a: FieldAttr): (r: Result<Attr>)
    ensures r.Ok? <==> a.meta.ListMeta? && a.meta.content.Ok?
    ensures r.Ok? ==> a.meta == ListMeta(Ok(r.value))
  {
    match a.meta
    case ListMeta(content) => content
    case OtherMeta => Err("expected a list with inner attribute")
  }

  /** A field's attributes, sorted into the three conditional lists and the
      attributes kept as written. */
  datatype AttrSplit = AttrSplit(optionalAttrs: seq<Attr>, requiredAttrs: seq<Attr>, baseAttrs: seq<Attr>, others: seq<Attr>)

  /** The inner attributes of the markers named `name`, in order. */
  function Markers(attrs: seq<FieldAttr>, name: string): seq<Attr>
  {
    if |attrs| == 0 then []
    else
      var a := attrs[0];
      (if IsMacroAttr(a, name) && InnerAttr(a).Ok? then [InnerAttr(a).value] else []) + Markers(attrs[1..], name)
  }

  /** The attributes that are not markers, in order. */
  function Plain(attrs: seq<FieldAttr>): seq<Attr> {
    if |attrs| == 0 then []
    else (if IsMarker(attrs[0]) then [] else [attrs[0].attr]) + Plain(attrs[1..])
  }

  /** The attribute loop of `process_field`: each marker contributes its inner
      attribute to its list, and the first marker whose content does not read
      as an attribute stops the field. */
  function SplitAttrs(attrs: seq<FieldAttr>): (r: Result<AttrSplit>)
    ensures r.Ok? <==> forall i | 0 <= i < |attrs| :: IsMarker(attrs[i]) ==> InnerAttr(attrs[i]).Ok?
    ensures r.Ok? ==> r.value == AttrSplit(Markers(attrs, "when_optional"), Markers(attrs, "when_required"),
                                           Markers(attrs, "when_base"), Plain(attrs))
  {
    if |attrs| == 0 then Ok(AttrSplit([], [], [], []))
    else
      var a := attrs[0];
      var rest := SplitAttrs(attrs[1..]);
      assert forall i | 1 <= i < |attrs| :: attrs[i] == attrs[1..][i - 1];
      if IsMarker(a) && InnerAttr(a).Err? then Err(InnerAttr(a).error)
      else if rest.Err? then Err(rest.error)
      else
        var s := rest.value;
        if IsMacroAttr(a, "when_optional") then
          Ok(s.(optionalAttrs := [InnerAttr(a).value] + s.optionalAttrs))
        else if IsMacroAttr(a, "when_required") then
          Ok(s.(requiredAttrs := [InnerAttr(a).value] + s.requiredAttrs))
        else if IsMacroAttr(a, "when_base") then
          Ok(s.(baseAttrs := [InnerAttr(a).value] + s.baseAttrs))
        else
          Ok(s.(others := [a.attr] + s.others))
  }

  /** Every attribute goes to exactly one place: the four lists together are as
      long as the attribute list. */
  lemma {:induction false} SplitAttrsPartitions(attrs: seq<FieldAttr>)
    requires SplitAttrs(attrs).Ok?
    ensures var s := SplitAttrs(attrs).value;
      |s.optionalAttrs| + |s.requiredAttrs| + |s.baseAttrs| + |s.others| == |attrs|
  {
    if |attrs| > 0 {
      assert SplitAttrs(attrs[1..]).Ok?;
      SplitAttrsPartitions(attrs[1..]);
    }
  }

  /** An attribute that is not a marker is kept exactly as written, and a marker
      never is. */
  lemma {:induction false} PlainKeepsOthers(attrs: seq<FieldAttr>, a: Attr)
    ensures a in Plain(attrs) <==> exists i | 0 <= i < |attrs| :: !IsMarker(attrs[i]) && attrs[i].attr == a
  {
    if |attrs| > 0 {
      PlainKeepsOthers(attrs[1..], a);
      if exists i | 0 <= i < |attrs| :: !IsMarker(attrs[i]) && attrs[i].attr == a {
        var i :| 0 <= i < |attrs| && !IsMarker(attrs[i]) && attrs[i].attr == a;
        if i > 0 {
          assert attrs[1..][i - 1] == attrs[i];
        }
      }
      if exists i | 0 <= i < |attrs[1..]| :: !IsMarker(attrs[1..][i]) && attrs[1..][i].attr == a {
        var i :| 0 <= i < |attrs[1..]| && !IsMarker(attrs[1..][i]) && attrs[1..][i].attr == a;
        assert attrs[i + 1] == attrs[1..][i];
      }
    }
  }

  // ---------------------------------------------------------------------------
  // Classification

  /** The classification of one field (`FieldSpec`). `requiredIn`, `optionalIn`
      and `neverIn` are lists of context names; `variantTypes` maps a context
      name to the type override written for the field in that context. */
  datatype FieldSpec = FieldSpec(
    name: string,
    ty: Ty,
    attrs: seq<Attr>,
    requiredIn: seq<string>,
    optionalIn: seq<string>,
    neverIn: seq<string>,
    isOption: bool,
    optionalAttrs: seq<Attr>,
    requiredAttrs: seq<Attr>,
    baseAttrs: seq<Attr>,
    variantTypes: map<string, Ty>)

  /** The names of the contexts whose list of kind `k` names the field, in
      context order (the first loop of `process_field`). */
  function Explicit(ctxs: seq<FluentContext>, k: DefaultBehavior, f: string, fields: seq<string>, groups: Groups): (r: seq<string>)
    ensures forall n :: n in r <==>
      exists i | 0 <= i < |ctxs| :: ctxs[i].name == n && AnyMatch(RefsOf(ctxs[i], k), f, fields, groups)
  {
    if |ctxs| == 0 then []
    else
      var rest := Explicit(ctxs[1..], k, f, fields, groups);
      assert forall i | 1 <= i < |ctxs| :: ctxs[i] == ctxs[1..][i - 1];
      (if AnyMatch(RefsOf(ctxs[0], k), f, fields, groups) then [ctxs[0].name] else []) + rest
  }

  /** The names of the contexts that do not mention the field and whose fallback
      is `k`, in context order (the second loop of `process_field`). */
  function Defaulted(ctxs: seq<FluentContext>, k: DefaultBehavior, f: string, fields: seq<string>, groups: Groups,
                     global: Option<DefaultBehavior>): (r: seq<string>)
    ensures forall n :: n in r <==>
      exists i | 0 <= i < |ctxs| :: ctxs[i].name == n && !Mentioned(ctxs[i], f, fields, groups) && Fallback(ctxs[i], global) == k
  {
    if |ctxs| == 0 then []
    else
      var rest := Defaulted(ctxs[1..], k, f, fields, groups, global);
      assert forall i | 1 <= i < |ctxs| :: ctxs[i] == ctxs[1..][i - 1];
      (if !Mentioned(ctxs[0], f, fields, groups) && Fallback(ctxs[0], global) == k then [ctxs[0].name] else []) + rest
  }

  /** The context names a field lands in for kind `k`: explicit mentions first,
      then defaults. */
  function Lands(ctxs: seq<FluentContext>, k: DefaultBehavior, f: string, fields: seq<string>, groups: Groups,
                 global: Option<DefaultBehavior>): seq<string>
  {
    Explicit(ctxs, k, f, fields, groups) + Defaulted(ctxs, k, f, fields, groups, global)
  }

  /** The type override the first matching reference of a list carries, if any. */
  function OverrideIn(refs: seq<FieldRef>, f: string, fields: seq<string>, groups: Groups): Option<Ty> {
    var m := FirstMatch(refs, f, fields, groups);
    if m.Some? then VariantType(m.value) else None
  }

  /** One context's contribution to `variant_types`: the required list's
      override, overwritten by the optional list's, overwritten by the excluded
      list's. */
  function InsertOverrides(m: map<string, Ty>, c: FluentContext, f: string, fields: seq<string>, groups: Groups): map<string, Ty> {
    var r := OverrideIn(c.required, f, fields, groups);
    var o := OverrideIn(c.optional, f, fields, groups);
    var e := OverrideIn(c.excluded, f, fields, groups);
    var m1 := if r.Some? then m[c.name := r.value] else m;
    var m2 := if o.Some? then m1[c.name := o.value] else m1;
    if e.Some? then m2[c.name := e.value] else m2
  }

  /** `variant_types`, built context by context. */
  function VariantTypes(ctxs: seq<FluentContext>, f: string, fields: seq<string>, groups: Groups): map<string, Ty>
  {
    if |ctxs| == 0 then map[]
    else InsertOverrides(VariantTypes(ctxs[..|ctxs| - 1], f, fields, groups), ctxs[|ctxs| - 1], f, fields, groups)
  }

  /** The override that holds for one context: the last list (in the order
      required, optional, excluded) whose first match carries a type. */
  function ContextOverride(c: FluentContext, f: string, fields: seq<string>, groups: Groups): Option<Ty> {
    var e := OverrideIn(c.excluded, f, fields, groups);
    var o := OverrideIn(c.optional, f, fields, groups);
    if e.Some? then e else if o.Some? then o else OverrideIn(c.required, f, fields, groups)
  }

  /** `process_field`. Fields are always named here, so the tuple-struct error
      of the source cannot arise. */
  function ProcessField(d: FieldDecl, cfg: VariantList, fields: seq<string>): (r: Result<FieldSpec>)
    ensures r.Ok? <==> SplitAttrs(d.attrs).Ok?
    ensures r.Ok? ==> r.value.name == d.name && r.value.ty == d.ty && r.value.isOption == IsOptionType(d.ty)
    ensures r.Ok? ==> r.value.attrs == Plain(d.attrs) && r.value.baseAttrs == SplitAttrs(d.attrs).value.baseAttrs
  {
    var split :- SplitAttrs(d.attrs);
    var ctxs := cfg.contexts;
    var groups := cfg.fieldGroups;
    Ok(FieldSpec(
      d.name, d.ty, split.others,
      Lands(ctxs, Required, d.name, fields, groups, cfg.globalDefault),
      Lands(ctxs, Optional, d.name, fields, groups, cfg.globalDefault),
      Lands(ctxs, Exclude, d.name, fields, groups, cfg.globalDefault),
      IsOptionType(d.ty),
      split.optionalAttrs, split.requiredAttrs, split.baseAttrs,
      VariantTypes(ctxs, d.name, fields, groups)))
  }

  /** Whether the field lands in context `c` for kind `k`. */
  predicate LandsIn(c: FluentContext, k: DefaultBehavior, f: string, fields: seq<string>, groups: Groups, global: Option<DefaultBehavior>) {
    AnyMatch(RefsOf(c, k), f, fields, groups) || (!Mentioned(c, f, fields, groups) && Fallback(c, global) == k)
  }

  /** A name is in the kind-`k` list of a processed field exactly when some
      context of that name either names the field in its kind-`k` list or
      leaves it unmentioned with fallback `k`. */
  lemma LandsMembership(ctxs: seq<FluentContext>, k: DefaultBehavior, f: string, fields: seq<string>, groups: Groups,
                        global: Option<DefaultBehavior>, n: string)
    ensures n in Lands(ctxs, k, f, fields, groups, global) <==>
      exists i | 0 <= i < |ctxs| :: ctxs[i].name == n && LandsIn(ctxs[i], k, f, fields, groups, global)
  {
  }

  /** Under unique context names, the context at index `i` is the only one its
      name can come from. */
  lemma LandsAt(ctxs: seq<FluentContext>, i: nat, k: DefaultBehavior, f: string, fields: seq<string>, groups: Groups,
                global: Option<DefaultBehavior>)
    requires UniqueNames(ctxs) && i < |ctxs|
    ensures ctxs[i].name in Lands(ctxs, k, f, fields, groups, global) <==> LandsIn(ctxs[i], k, f, fields, groups, global)
  {
    LandsMembership(ctxs, k, f, fields, groups, global, ctxs[i].name);
    if ctxs[i].name in Lands(ctxs, k, f, fields, groups, global) {
      var j :| 0 <= j < |ctxs| && ctxs[j].name == ctxs[i].name && LandsIn(ctxs[j], k, f, fields, groups, global);
      assert j == i;
    }
  }

  /** A field no list of the context mentions lands in exactly one of the three
      lists for that context: the one its fallback names. */
  lemma UnmentionedLandsOnce(ctxs: seq<FluentContext>, i: nat, f: string, fields: seq<string>, groups: Groups,
                             global: Option<DefaultBehavior>)
    requires UniqueNames(ctxs) && i < |ctxs|
    requires !Mentioned(ctxs[i], f, fields, groups)
    ensures forall k :: ctxs[i].name in Lands(ctxs, k, f, fields, groups, global) <==> k == Fallback(ctxs[i], global)
  {
    forall k {
      LandsAt(ctxs, i, k, f, fields, groups, global);
    }
  }

  /** A name occurs in a kind's list of a processed field at most as often as
      contexts carry it: no context lands there both by mention and by default. */
  lemma {:induction false} LandsCount(ctxs: seq<FluentContext>, k: DefaultBehavior, f: string, fields: seq<string>,
                                      groups: Groups, global: Option<DefaultBehavior>, n: string)
    ensures multiset(Lands(ctxs, k, f, fields, groups, global))[n] <= multiset(Names(ctxs))[n]
    decreases |ctxs|
  {
    if |ctxs| > 0 {
      LandsCount(ctxs[1..], k, f, fields, groups, global, n);
      LandsCons(ctxs, k, f, fields, groups, global);
      HeadLands(ctxs[0], k, f, fields, groups, global);
      assert multiset(Names(ctxs)) == multiset([ctxs[0].name]) + multiset(Names(ctxs[1..]));
    }
  }

  lemma LandsCons(ctxs: seq<FluentContext>, k: DefaultBehavior, f: string, fields: seq<string>,
                  groups: Groups, global: Option<DefaultBehavior>)
    requires |ctxs| > 0
    ensures multiset(Lands(ctxs, k, f, fields, groups, global))
      == multiset(Lands([ctxs[0]], k, f, fields, groups, global)) + multiset(Lands(ctxs[1..], k, f, fields, groups, global))
  {
    ExplicitCons(ctxs, k, f, fields, groups);
    DefaultedCons(ctxs, k, f, fields, groups, global);
    Interleave(Explicit([ctxs[0]], k, f, fields, groups), Explicit(ctxs[1..], k, f, fields, groups),
               Defaulted([ctxs[0]], k, f, fields, groups, global), Defaulted(ctxs[1..], k, f, fields, groups, global));
  }

  lemma ExplicitCons(ctxs: seq<FluentContext>, k: DefaultBehavior, f: string, fields: seq<string>, groups: Groups)
    requires |ctxs| > 0
    ensures Explicit(ctxs, k, f, fields, groups) == Explicit([ctxs[0]], k, f, fields, groups) + Explicit(ctxs[1..], k, f, fields, groups)
  {
    SingleLands(ctxs[0], k, f, fields, groups, None);
  }

  lemma DefaultedCons(ctxs: seq<FluentContext>, k: DefaultBehavior, f: string, fields: seq<string>, groups: Groups,
                      global: Option<DefaultBehavior>)
    requires |ctxs| > 0
    ensures Defaulted(ctxs, k, f, fields, groups, global)
      == Defaulted([ctxs[0]], k, f, fields, groups, global) + Defaulted(ctxs[1..], k, f, fields, groups, global)
  {
    SingleLands(ctxs[0], k, f, fields, groups, global);
  }

  lemma Interleave(a: seq<string>, b: seq<string>, c: seq<string>, d: seq<string>)
    ensures multiset((a + b) + (c + d)) == multiset(a + c) + multiset(b + d)
  {
  }

  lemma HeadLands(c: FluentContext, k: DefaultBehavior, f: string, fields: seq<string>,
                  groups: Groups, global: Option<DefaultBehavior>)
    ensures Lands([c], k, f, fields, groups, global) == if LandsIn(c, k, f, fields, groups, global) then [c.name] else []
  {
    SingleLands(c, k, f, fields, groups, global);
    if AnyMatch(RefsOf(c, k), f, fields, groups) {
      assert Mentioned(c, f, fields, groups);
    }
  }

  lemma SingleLands(c: FluentContext, k: DefaultBehavior, f: string, fields: seq<string>,
                    groups: Groups, global: Option<DefaultBehavior>)
    ensures Explicit([c], k, f, fields, groups) == if AnyMatch(RefsOf(c, k), f, fields, groups) then [c.name] else []
    ensures Defaulted([c], k, f, fields, groups, global)
      == if !Mentioned(c, f, fields, groups) && Fallback(c, global) == k then [c.name] else []
  {
    assert [c][1..] == [];
    var e := if AnyMatch(RefsOf(c, k), f, fields, groups) then [c.name] else [];
    var d := if !Mentioned(c, f, fields, groups) && Fallback(c, global) == k then [c.name] else [];
    assert e + [] == e;
    assert d + [] == d;
  }

  /** Under unique context names every name lands in a kind's list at most
      once, and the context at index `i` lands there exactly when `LandsIn`
      says so. */
  lemma LandsOnce(ctxs: seq<FluentContext>, i: nat, k: DefaultBehavior, f: string, fields: seq<string>,
                  groups: Groups, global: Option<DefaultBehavior>)
    requires UniqueNames(ctxs) && i < |ctxs|
    ensures multiset(Lands(ctxs, k, f, fields, groups, global))[ctxs[i].name]
      == if LandsIn(ctxs[i], k, f, fields, groups, global) then 1 else 0
  {
    var n := ctxs[i].name;
    LandsCount(ctxs, k, f, fields, groups, global, n);
    UniqueNamesCount(ctxs, i);
    LandsAt(ctxs, i, k, f, fields, groups, global);
  }

  lemma {:induction false} UniqueNamesCount(ctxs: seq<FluentContext>, i: nat)
    requires UniqueNames(ctxs) && i < |ctxs|
    ensures multiset(Names(ctxs))[ctxs[i].name] == 1
    decreases |ctxs|
  {
    var n := ctxs[i].name;
    assert multiset(Names(ctxs)) == multiset([ctxs[0].name]) + multiset(Names(ctxs[1..]));
    if i > 0 {
      assert ctxs[1..][i - 1] == ctxs[i];
      assert UniqueNames(ctxs[1..]) by {
        forall a, b | 0 <= a < b < |ctxs[1..]| ensures ctxs[1..][a].name != ctxs[1..][b].name {
          assert ctxs[1..][a] == ctxs[a + 1] && ctxs[1..][b] == ctxs[b + 1];
        }
      }
      UniqueNamesCount(ctxs[1..], i - 1);
      assert ctxs[0].name != n;
    }
  }

  /** One context's overrides touch only that context's name; the entry they
      leave is the context's own override when it has one. */
  lemma InsertOverridesEffect(m: map<string, Ty>, c: FluentContext, f: string, fields: seq<string>, groups: Groups)
    ensures var r := InsertOverrides(m, c, f, fields, groups);
      && (forall n | n != c.name :: (n in r <==> n in m) && (n in m ==> r[n] == m[n]))
      && (c.name in r <==> c.name in m || ContextOverride(c, f, fields, groups).Some?)
      && (ContextOverride(c, f, fields, groups).Some? ==> r[c.name] == ContextOverride(c, f, fields, groups).value)
  {
  }

  /** A name no context carries has no entry in `variant_types`. */
  lemma {:induction false} VariantTypesAbsent(ctxs: seq<FluentContext>, f: string, fields: seq<string>, groups: Groups, n: string)
    requires n !in Names(ctxs)
    ensures n !in VariantTypes(ctxs, f, fields, groups)
  {
    if |ctxs| > 0 {
      var init := ctxs[..|ctxs| - 1];
      assert Names(init) == Names(ctxs)[..|ctxs| - 1];
      assert n != Names(ctxs)[|ctxs| - 1];
      VariantTypesAbsent(init, f, fields, groups, n);
      InsertOverridesEffect(VariantTypes(init, f, fields, groups), ctxs[|ctxs| - 1], f, fields, groups);
    }
  }

  /** Under unique context names, a context's entry in `variant_types` is its
      own override. */
  lemma {:induction false} VariantTypesAt(ctxs: seq<FluentContext>, i: nat, f: string, fields: seq<string>, groups: Groups)
    requires UniqueNames(ctxs) && i < |ctxs|
    ensures var vt := VariantTypes(ctxs, f, fields, groups); var o := ContextOverride(ctxs[i], f, fields, groups);
      (ctxs[i].name in vt <==> o.Some?) && (o.Some? ==> vt[ctxs[i].name] == o.value)
  {
    var init := ctxs[..|ctxs| - 1];
    var last := ctxs[|ctxs| - 1];
    InsertOverridesEffect(VariantTypes(init, f, fields, groups), last, f, fields, groups);
    if i == |ctxs| - 1 {
      VariantTypesAbsent(init, f, fields, groups, last.name);
    } else {
      assert UniqueNames(init);
      assert init[i] == ctxs[i];
      VariantTypesAt(init, i, f, fields, groups);
    }
  }
}

=== FILE: expander.dfy ===
/** The group and wildcard expander (src/lib.rs:1018-1043, 1132-1264). Group
    definitions are resolved against the declared fields first; then every group
    reference inside a context is replaced by the group's fields. Wildcards
    (`all_fields()`) inside contexts are left alone and matched field by field
    later. */
module Expander {
  import opened Wrappers
  import opened Syntax
  import opened Rules

  // ---------------------------------------------------------------------------
  // Group definitions

  /** The names of `names` that are not exceptions, in their original order. */
  function Without(names: seq<string>, except: seq<string>): (r: seq<string>)
    ensures forall x :: x in r <==> x in names && x !in except
    ensures |r| <= |names|
  {
    if |names| == 0 then []
    else (if names[0] in except then [] else [names[0]]) + Without(names[1..], except)
  }

  /** Removing exceptions is done name by name, so it distributes over
      concatenation: the order of the survivors is the order of the input. */
  lemma {:induction false} WithoutAppend(a: seq<string>, b: seq<string>, except: seq<string>)
    ensures Without(a + b, except) == Without(a, except) + Without(b, except)
  {
    if |a| == 0 {
      assert a + b == b;
    } else {
      assert (a + b)[1..] == a[1..] + b;
      WithoutAppend(a[1..], b, except);
    }
  }

  /** With no exception, nothing is removed. */
  lemma {:induction false} WithoutNothing(names: seq<string>)
    ensures Without(names, []) == names
  {
    if |names| > 0 {
      WithoutNothing(names[1..]);
    }
  }

  /** The names one member of a group definition stands for. */
  function Contribution(r: GroupFieldRef, fields: seq<string>): seq<string> {
    match r
    case GroupField(x) => [x]
    case GroupAllFields(except) => Without(fields, except)
  }

  /** `expand_group_field_refs`: the in-order concatenation of what each member
      stands for. */
  function ExpandGroupFieldRefs(refs: seq<GroupFieldRef>, fields: seq<string>): (r: seq<string>)
    ensures forall x :: x in r <==> exists i | 0 <= i < |refs| :: x in Contribution(refs[i], fields)
  {
    if |refs| == 0 then []
    else
      var rest := ExpandGroupFieldRefs(refs[1..], fields);
      assert forall i | 1 <= i < |refs| :: refs[i] == refs[1..][i - 1];
      Contribution(refs[0], fields) + rest
  }

  /** Expanding a concatenation of members concatenates their expansions. */
  lemma {:induction false} ExpandGroupFieldRefsAppend(a: seq<GroupFieldRef>, b: seq<GroupFieldRef>, fields: seq<string>)
    ensures ExpandGroupFieldRefs(a + b, fields) == ExpandGroupFieldRefs(a, fields) + ExpandGroupFieldRefs(b, fields)
  {
    if |a| == 0 {
      assert a + b == b;
    } else {
      assert (a + b)[1..] == a[1..] + b;
      ExpandGroupFieldRefsAppend(a[1..], b, fields);
    }
  }

  /** Every name of an expanded group is a declared field that none of the
      wildcards excepted, or a name written literally in the definition. */
  lemma GroupNamesAreDeclaredOrLiteral(refs: seq<GroupFieldRef>, fields: seq<string>, x: string)
    requires x in ExpandGroupFieldRefs(refs, fields)
    ensures (x in fields && exists i | 0 <= i < |refs| :: refs[i].GroupAllFields? && x !in refs[i].except)
         || (exists i | 0 <= i < |refs| :: refs[i] == GroupField(x))
  {
    var i :| 0 <= i < |refs| && x in Contribution(refs[i], fields);
    match refs[i]
    case GroupField(y) =>
    case GroupAllFields(except) =>
  }

  /** Every group definition, expanded against the declared fields. */
  function ExpandGroups(groupRefs: map<string, seq<GroupFieldRef>>, fields: seq<string>): (g: Groups)
    ensures g.Keys == groupRefs.Keys
  {
    map n | n in groupRefs :: ExpandGroupFieldRefs(groupRefs[n], fields)
  }

  // ---------------------------------------------------------------------------
  // Group references inside contexts

  /** The references `Field(x)` for each name, in order. */
  function FieldsOf(names: seq<string>): (refs: seq<FieldRef>)
    ensures |refs| == |names| && forall i | 0 <= i < |names| :: refs[i] == Field(names[i])
  {
    seq(|names|, i requires 0 <= i < |names| => Field(names[i]))
  }

  /** What one reference of a context list becomes. A plain name that is also a
      group name stands for the group, even when a field has the same name. */
  function ExpandRef(r: FieldRef, groups: Groups): Result<seq<FieldRef>> {
    match r
    case Field(x) => Ok(if x in groups then FieldsOf(groups[x]) else [r])
    case FieldWithType(_, _) => Ok([r])
    case AllFields(_) => Ok([r])
    case GroupWithExcept(g, except) =>
      if g in groups then Ok(FieldsOf(Without(groups[g], except)))
      else Err("unknown field group '" + g + "'")
  }

  /** Whether a list holds no group-with-exceptions reference. */
  predicate NoGroupRefs(refs: seq<FieldRef>) {
    forall i | 0 <= i < |refs| :: !refs[i].GroupWithExcept?
  }

  /** Expands every reference of a list, in order; the first reference to an
      undefined group stops the expansion. */
  function ExpandRefs(refs: seq<FieldRef>, groups: Groups): (r: Result<seq<FieldRef>>)
    ensures r.Ok? <==> forall i | 0 <= i < |refs| :: !(refs[i].GroupWithExcept? && refs[i].group !in groups)
    ensures r.Ok? ==> NoGroupRefs(r.value)
  {
    if |refs| == 0 then Ok([])
    else
      var head := ExpandRef(refs[0], groups);
      var rest := ExpandRefs(refs[1..], groups);
      assert forall i | 1 <= i < |refs| :: refs[i] == refs[1..][i - 1];
      if head.Err? then Err(head.error)
      else if rest.Err? then Err(rest.error)
      else
        assert forall i | 0 <= i < |head.value| :: !head.value[i].GroupWithExcept?;
        Ok(head.value + rest.value)
  }

  /** What a reference meant before expansion: a plain name that names a group
      stands for the group's fields; every other reference means what
      `matches_field` says. */
  predicate Denotes(r: FieldRef, f: string, fields: seq<string>, groups: Groups) {
    if r.Field? && r.name in groups then f in groups[r.name]
    else MatchesField(r, f, fields, groups)
  }

  lemma AnyMatchAppend(a: seq<FieldRef>, b: seq<FieldRef>, f: string, fields: seq<string>, groups: Groups)
    ensures AnyMatch(a + b, f, fields, groups) <==> AnyMatch(a, f, fields, groups) || AnyMatch(b, f, fields, groups)
  {
    if AnyMatch(b, f, fields, groups) {
      var i :| 0 <= i < |b| && MatchesField(b[i], f, fields, groups);
      assert (a + b)[|a| + i] == b[i];
    }
    if AnyMatch(a + b, f, fields, groups) {
      var i :| 0 <= i < |a + b| && MatchesField((a + b)[i], f, fields, groups);
      if i >= |a| {
        assert (a + b)[i] == b[i - |a|];
      } else {
        assert (a + b)[i] == a[i];
      }
    }
    if AnyMatch(a, f, fields, groups) {
      var i :| 0 <= i < |a| && MatchesField(a[i], f, fields, groups);
      assert (a + b)[i] == a[i];
    }
  }

  lemma AnyMatchFieldsOf(names: seq<string>, f: string, fields: seq<string>, groups: Groups)
    ensures AnyMatch(FieldsOf(names), f, fields, groups) <==> f in names
  {
    if f in names {
      var k :| 0 <= k < |names| && names[k] == f;
      assert MatchesField(FieldsOf(names)[k], f, fields, groups);
    }
  }

  lemma AnyMatchSingle(r: FieldRef, f: string, fields: seq<string>, groups: Groups)
    ensures AnyMatch([r], f, fields, groups) <==> MatchesField(r, f, fields, groups)
  {
    assert [r][0] == r;
  }

  /** One reference, once expanded, matches exactly what it stood for. */
  lemma ExpandRefMeaning(r: FieldRef, groups: Groups, f: string, fields: seq<string>)
    requires ExpandRef(r, groups).Ok?
    ensures AnyMatch(ExpandRef(r, groups).value, f, fields, groups) <==> Denotes(r, f, fields, groups)
  {
    match r
    case Field(x) =>
      if x in groups {
        AnyMatchFieldsOf(groups[x], f, fields, groups);
      } else {
        AnyMatchSingle(r, f, fields, groups);
      }
    case FieldWithType(_, _) =>
      AnyMatchSingle(r, f, fields, groups);
    case AllFields(_) =>
      AnyMatchSingle(r, f, fields, groups);
    case GroupWithExcept(g, except) =>
      AnyMatchFieldsOf(Without(groups[g], except), f, fields, groups);
  }

  /** Expansion keeps the meaning of every list: after it, a field is matched by
      some reference exactly when, before it, some reference stood for that
      field. */
  lemma {:induction false} ExpandKeepsMeaning(refs: seq<FieldRef>, groups: Groups, f: string, fields: seq<string>)
    requires ExpandRefs(refs, groups).Ok?
    ensures AnyMatch(ExpandRefs(refs, groups).value, f, fields, groups)
        <==> exists i | 0 <= i < |refs| :: Denotes(refs[i], f, fields, groups)
  {
    if |refs| > 0 {
      var head := ExpandRef(refs[0], groups).value;
      var rest := ExpandRefs(refs[1..], groups).value;
      assert ExpandRefs(refs, groups).value == head + rest;
      AnyMatchAppend(head, rest, f, fields, groups);
      ExpandKeepsMeaning(refs[1..], groups, f, fields);
      ExpandRefMeaning(refs[0], groups, f, fields);
      assert (exists i | 0 <= i < |refs| :: Denotes(refs[i], f, fields, groups))
        <==> Denotes(refs[0], f, fields, groups) || exists i | 0 <= i < |refs[1..]| :: Denotes(refs[1..][i], f, fields, groups) by {
        if exists i | 0 <= i < |refs| :: Denotes(refs[i], f, fields, groups) {
          var i :| 0 <= i < |refs| && Denotes(refs[i], f, fields, groups);
          if i > 0 {
            assert refs[1..][i - 1] == refs[i];
          }
        }
        if exists i | 0 <= i < |refs[1..]| :: Denotes(refs[1..][i], f, fields, groups) {
          var i :| 0 <= i < |refs[1..]| && Denotes(refs[1..][i], f, fields, groups);
          assert refs[i + 1] == refs[1..][i];
        }
      }
    }
  }

  /** The references expansion leaves untouched: type overrides and wildcards. */
  function Untouched(refs: seq<FieldRef>): seq<FieldRef> {
    if |refs| == 0 then []
    else Kept(refs[0]) + Untouched(refs[1..])
  }

  function Kept(r: FieldRef): seq<FieldRef> {
    if r.FieldWithType? || r.AllFields? then [r] else []
  }

  lemma {:induction false} UntouchedAppend(a: seq<FieldRef>, b: seq<FieldRef>)
    ensures Untouched(a + b) == Untouched(a) + Untouched(b)
  {
    if |a| == 0 {
      assert a + b == b;
    } else {
      assert (a + b)[1..] == a[1..] + b;
      UntouchedAppend(a[1..], b);
    }
  }

  lemma {:induction false} UntouchedOfFields(names: seq<string>)
    ensures Untouched(FieldsOf(names)) == []
  {
    if |names| > 0 {
      assert FieldsOf(names)[1..] == FieldsOf(names[1..]);
      UntouchedOfFields(names[1..]);
    }
  }

  /** Type overrides and wildcards come out of expansion unchanged and in their
      original order. */
  lemma {:induction false} ExpandKeepsUntouched(refs: seq<FieldRef>, groups: Groups)
    requires ExpandRefs(refs, groups).Ok?
    ensures Untouched(ExpandRefs(refs, groups).value) == Untouched(refs)
  {
    if |refs| > 0 {
      var head := ExpandRef(refs[0], groups).value;
      var rest := ExpandRefs(refs[1..], groups).value;
      UntouchedAppend(head, rest);
      ExpandKeepsUntouched(refs[1..], groups);
      match refs[0]
      case Field(x) =>
        if x in groups {
          UntouchedOfFields(groups[x]);
        } else {
          assert Untouched(head) == [] by { assert head == [refs[0]]; }
        }
      case FieldWithType(_, _) =>
        assert head == [refs[0]];
        assert Untouched(head) == [refs[0]];
      case AllFields(_) =>
        assert head == [refs[0]];
        assert Untouched(head) == [refs[0]];
      case GroupWithExcept(g, except) =>
        UntouchedOfFields(Without(groups[g], except));
    }
  }

  /** A plain name that names a group becomes the group's fields in order, even
      when a declared field has the same name (src/lib.rs:1150). */
  lemma GroupNameShadowsField(x: string, groups: Groups)
    requires x in groups
    ensures ExpandRefs([Field(x)], groups) == Ok(FieldsOf(groups[x]))
  {
    assert [Field(x)][1..] == [];
    assert FieldsOf(groups[x]) + [] == FieldsOf(groups[x]);
  }

  // ---------------------------------------------------------------------------
  // Contexts and the whole argument list

  /** Expands the three lists of a context, required first. */
  function ExpandContext(c: FluentContext, groups: Groups): (r: Result<FluentContext>)
    ensures r.Ok? <==> ExpandRefs(c.required, groups).Ok? && ExpandRefs(c.optional, groups).Ok?
                       && ExpandRefs(c.excluded, groups).Ok?
    ensures r.Ok? ==> r.value.name == c.name && r.value.defaultBehavior == c.defaultBehavior
    ensures r.Ok? ==> NoGroupRefs(r.value.required) && NoGroupRefs(r.value.optional) && NoGroupRefs(r.value.excluded)
  {
    var required :- ExpandRefs(c.required, groups);
    var optional :- ExpandRefs(c.optional, groups);
    var excluded :- ExpandRefs(c.excluded, groups);
    Ok(c.(required := required, optional := optional, excluded := excluded))
  }

  /** Expands every context, stopping at the first failure. */
  function ExpandContexts(ctxs: seq<FluentContext>, groups: Groups): (r: Result<seq<FluentContext>>)
    ensures r.Ok? <==> forall i | 0 <= i < |ctxs| :: ExpandContext(ctxs[i], groups).Ok?
    ensures r.Ok? ==> |r.value| == |ctxs| && forall i | 0 <= i < |ctxs| :: ExpandContext(ctxs[i], groups) == Ok(r.value[i])
  {
    if |ctxs| == 0 then Ok([])
    else
      var head := ExpandContext(ctxs[0], groups);
      var rest := ExpandContexts(ctxs[1..], groups);
      assert forall i | 1 <= i < |ctxs| :: ctxs[i] == ctxs[1..][i - 1];
      if head.Err? then Err(head.error)
      else if rest.Err? then Err(rest.error)
      else Ok([head.value] + rest.value)
  }

  /** `expand_group_field_references`: resolves the group definitions, then the
      group references of every context. Nothing else in the arguments changes. */
  function ExpandGroupFieldReferences(cfg: VariantList, fields: seq<string>): (r: Result<VariantList>)
    ensures r.Ok? ==> r.value.fieldGroups == cfg.fieldGroups + ExpandGroups(cfg.groupRefs, fields)
    ensures r.Ok? ==> r.value == cfg.(fieldGroups := r.value.fieldGroups, contexts := r.value.contexts)
    ensures r.Ok? ==> |r.value.contexts| == |cfg.contexts|
    ensures r.Ok? ==> forall i | 0 <= i < |cfg.contexts| ::
      && r.value.contexts[i].name == cfg.contexts[i].name
      && r.value.contexts[i].defaultBehavior == cfg.contexts[i].defaultBehavior
      && NoGroupRefs(r.value.contexts[i].required)
      && NoGroupRefs(r.value.contexts[i].optional)
      && NoGroupRefs(r.value.contexts[i].excluded)
  {
    var groups := cfg.fieldGroups + ExpandGroups(cfg.groupRefs, fields);
    var ctxs :- ExpandContexts(cfg.contexts, groups);
    Ok(cfg.(fieldGroups := groups, contexts := ctxs))
  }

  /** Whether every group-with-exceptions reference of every context names a
      group the arguments define, either already expanded or by a `groups`
      directive. */
  predicate GroupsDefined(cfg: VariantList) {
    forall i, k, x | 0 <= i < |cfg.contexts| && x in RefsOf(cfg.contexts[i], k) ::
      x.GroupWithExcept? ==> x.group in cfg.fieldGroups || x.group in cfg.groupRefs
  }

  /** A list expands exactly when every group it references with exceptions
      is defined. */
  lemma ExpandRefsOk(refs: seq<FieldRef>, groups: Groups)
    ensures ExpandRefs(refs, groups).Ok? <==> forall x | x in refs :: x.GroupWithExcept? ==> x.group in groups
  {
    if !ExpandRefs(refs, groups).Ok? {
      var j :| 0 <= j < |refs| && refs[j].GroupWithExcept? && refs[j].group !in groups;
      assert refs[j] in refs;
    }
  }

  /** A context expands exactly when every group it references with exceptions,
      in any of its three lists, is defined. */
  lemma ExpandContextOk(c: FluentContext, groups: Groups)
    ensures ExpandContext(c, groups).Ok? <==>
      forall k, x | x in RefsOf(c, k) :: x.GroupWithExcept? ==> x.group in groups
  {
    ExpandRefsOk(c.required, groups);
    ExpandRefsOk(c.optional, groups);
    ExpandRefsOk(c.excluded, groups);
    assert RefsOf(c, Required) == c.required;
    assert RefsOf(c, Optional) == c.optional;
    assert RefsOf(c, Exclude) == c.excluded;
  }

  /** Expansion fails exactly when some context references, with exceptions, a
      group that neither the expanded groups nor the `groups` directive define
      (src/lib.rs:1150-1164). */
  lemma ExpansionSucceeds(cfg: VariantList, fields: seq<string>)
    ensures ExpandGroupFieldReferences(cfg, fields).Ok? <==> GroupsDefined(cfg)
  {
    var groups := cfg.fieldGroups + ExpandGroups(cfg.groupRefs, fields);
    assert forall g :: g in groups <==> g in cfg.fieldGroups || g in cfg.groupRefs;
    forall i | 0 <= i < |cfg.contexts| {
      ExpandContextOk(cfg.contexts[i], groups);
    }
    if GroupsDefined(cfg) {
      assert ExpandContexts(cfg.contexts, groups).Ok?;
    } else {
      var i, k, x :| 0 <= i < |cfg.contexts| && x in RefsOf(cfg.contexts[i], k)
        && x.GroupWithExcept? && !(x.group in cfg.fieldGroups || x.group in cfg.groupRefs);
      assert !ExpandContext(cfg.contexts[i], groups).Ok?;
    }
  }

  /** A reference to a group that is not defined stops the expansion, in
      whichever list of whichever context it stands. */
  lemma UndefinedGroupFails(cfg: VariantList, fields: seq<string>, i: nat, k: DefaultBehavior, g: string, except: seq<string>)
    requires i < |cfg.contexts|
    requires GroupWithExcept(g, except) in RefsOf(cfg.contexts[i], k)
    requires g !in cfg.fieldGroups && g !in cfg.groupRefs
    ensures ExpandGroupFieldReferences(cfg, fields).Err?
  {
    ExpansionSucceeds(cfg, fields);
  }
}

=== FILE: parser.dfy ===
/** The rule parser: `parse_mixed_args`, `FluentContextParser`, `parse_groups_expression`
    and `parse_single_group` (src/lib.rs:150-407, 813-1122). Every malformed piece
    stops parsing with the source's error message. */
module Parser {
  import opened Wrappers
  import opened Syntax
  import opened Rules
  import opened Seqs

  // ---------------------------------------------------------------------------
  // Field lists

  /** Reads a list of plain identifiers (the arguments of `all_fields(..)` and
      `.except(..)`); any other argument fails with `msg`. */
  function ParseIdents(args: seq<Expr>, msg: string): (r: Result<seq<string>>)
    ensures r.Ok? <==> forall i | 0 <= i < |args| :: GetIdent(args[i]).Some?
    ensures r.Ok? ==> |r.value| == |args| && forall i | 0 <= i < |args| :: args[i] == Ident(r.value[i])
    ensures r.Err? ==> r.error == msg
  {
    if |args| == 0 then Ok([])
    else
      match GetIdent(args[0])
      case None => Err(msg)
      case Some(x) =>
        var rest := ParseIdents(args[1..], msg);
        assert forall i | 1 <= i < |args| :: args[i] == args[1..][i - 1];
        if rest.Err? then Err(msg) else Ok([x] + rest.value)
  }

  /** One argument of `requires(..)`, `optional(..)`, `excludes(..)` or `default(..)`
      (src/lib.rs:298-402). */
  function ParseFieldRef(arg: Expr): Result<FieldRef> {
    match arg
    case Path(_) =>
      if GetIdent(arg).Some? then Ok(Field(GetIdent(arg).value)) else Err("expected field name")
    case Cast(operand, ty) =>
      if GetIdent(operand).Some? then Ok(FieldWithType(GetIdent(operand).value, ty))
      else Err("expected field name before 'as'")
    case Call(func, args) =>
      if GetIdent(func) == Some("all_fields") then
        var except :- ParseIdents(args, "expected field name in all_fields() arguments");
        Ok(AllFields(except))
      else Err("unsupported function call")
    case MethodCall(receiver, name, args) =>
      if receiver.Call? && GetIdent(receiver.func) == Some("all_fields") && name == "except" then
        var except :- ParseIdents(args, "expected field name in except() arguments");
        Ok(AllFields(except))
      else if GetIdent(receiver).Some? && name == "except" then
        var except :- ParseIdents(args, "expected field name in except() arguments");
        Ok(GroupWithExcept(GetIdent(receiver).value, except))
      else Err("unsupported method call")
    case _ => Err("expected field name, all_fields() function, or group name")
  }

  /** `parse_field_list`: every argument in order, failing at the first bad one. */
  function ParseFieldList(args: seq<Expr>): (r: Result<seq<FieldRef>>)
    ensures r.Ok? <==> forall i | 0 <= i < |args| :: ParseFieldRef(args[i]).Ok?
    ensures r.Ok? ==> |r.value| == |args| && forall i | 0 <= i < |args| :: ParseFieldRef(args[i]) == Ok(r.value[i])
  {
    if |args| == 0 then Ok([])
    else
      var head := ParseFieldRef(args[0]);
      var rest := ParseFieldList(args[1..]);
      assert forall i | 1 <= i < |args| :: args[i] == args[1..][i - 1];
      if head.Err? then Err(head.error)
      else if rest.Err? then Err(rest.error)
      else Ok([head.value] + rest.value)
  }

  // ---------------------------------------------------------------------------
  // Default behaviour

  /** The keyword of a default behaviour as it is written in the rule source. */
  function BehaviorName(b: DefaultBehavior): string {
    match b
    case Required => "required"
    case Optional => "optional"
    case Exclude => "exclude"
  }

  /** Reads `required`, `optional` or `exclude`; anything else fails. */
  function BehaviorNamed(s: string): (r: Result<DefaultBehavior>)
    ensures r.Ok? <==> s in {"required", "optional", "exclude"}
    ensures r.Ok? ==> BehaviorName(r.value) == s
  {
    if s == "required" then Ok(Required)
    else if s == "optional" then Ok(Optional)
    else if s == "exclude" then Ok(Exclude)
    else Err("expected 'required', 'optional', or 'exclude'")
  }

  /** The argument list of `default(..)`: exactly one plain name (src/lib.rs:197-211). */
  function ParseDefaultArg(fields: seq<FieldRef>): (r: Result<DefaultBehavior>)
    ensures r.Ok? <==> |fields| == 1 && fields[0].Field? && fields[0].name in {"required", "optional", "exclude"}
    ensures r.Ok? ==> BehaviorName(r.value) == fields[0].name
  {
    if |fields| != 1 then Err("default() expects exactly one argument")
    else match fields[0]
      case Field(x) => BehaviorNamed(x)
      case _ => Err("expected field name for default behavior")
  }

  // ---------------------------------------------------------------------------
  // Fluent chains

  /** A context with nothing in it yet. */
  function EmptyContext(name: string): FluentContext {
    FluentContext(name, [], [], [], None)
  }

  /** Applies one call of a chain to the context being built: its references are
      appended to the list the call names, and `default(..)` replaces the
      context's default. */
  function ApplyCall(ctx: FluentContext, fname: string, args: seq<Expr>): (r: Result<FluentContext>)
    ensures r.Ok? ==> fname in {"requires", "optional", "excludes", "default"}
    ensures fname in {"requires", "optional", "excludes"} ==> (r.Ok? <==> ParseFieldList(args).Ok?)
    ensures fname == "default" ==>
      (r.Ok? <==> ParseFieldList(args).Ok? && ParseDefaultArg(ParseFieldList(args).value).Ok?)
    ensures r.Ok? ==> r.value.name == ctx.name
    ensures r.Ok? ==> ParseFieldList(args).Ok?
    ensures r.Ok? && fname == "requires" ==> r.value == ctx.(required := ctx.required + ParseFieldList(args).value)
    ensures r.Ok? && fname == "optional" ==> r.value == ctx.(optional := ctx.optional + ParseFieldList(args).value)
    ensures r.Ok? && fname == "excludes" ==> r.value == ctx.(excluded := ctx.excluded + ParseFieldList(args).value)
    ensures r.Ok? && fname == "default" ==>
      ParseDefaultArg(ParseFieldList(args).value).Ok? &&
      r.value == ctx.(defaultBehavior := Some(ParseDefaultArg(ParseFieldList(args).value).value))
  {
    var fields :- ParseFieldList(args);
    if fname == "requires" then Ok(ctx.(required := ctx.required + fields))
    else if fname == "optional" then Ok(ctx.(optional := ctx.optional + fields))
    else if fname == "excludes" then Ok(ctx.(excluded := ctx.excluded + fields))
    else if fname == "default" then
      var b :- ParseDefaultArg(fields);
      Ok(ctx.(defaultBehavior := Some(b)))
    else Err("expected 'requires', 'optional', 'excludes', or 'default'")
  }

  /** `parse_function_call`: a chain made of a single call `f(args)`. */
  function ParseFunctionCall(name: string, func: Expr, args: seq<Expr>): (r: Result<FluentContext>)
    ensures r.Ok? ==> r.value.name == name
  {
    if GetIdent(func).None? then Err("expected function name")
    else ApplyCall(EmptyContext(name), GetIdent(func).value, args)
  }

  /** One method call `.m(args)` of a chain. */
  datatype Step = Step(name: string, args: seq<Expr>)

  /** Takes a chain `f(a).m1(b).m2(c)` apart into the base call `f(a)` and the
      steps `[m1(b), m2(c)]` in the order they apply; a chain that does not start
      with a call fails. */
  function Unchain(receiver: Expr, name: string, args: seq<Expr>): (r: Result<(Expr, seq<Expr>, seq<Step>)>)
    ensures r.Ok? ==> |r.value.2| > 0 && r.value.2[|r.value.2| - 1] == Step(name, args)
    decreases receiver
  {
    match receiver
    case MethodCall(inner, innerName, innerArgs) =>
      var chain :- Unchain(inner, innerName, innerArgs);
      Ok((chain.0, chain.1, chain.2 + [Step(name, args)]))
    case Call(func, baseArgs) => Ok((func, baseArgs, [Step(name, args)]))
    case _ => Err("method chain must start with a function call like 'requires(...)'")
  }

  /** Applies the steps of a chain in order. */
  function ApplySteps(ctx: FluentContext, steps: seq<Step>): (r: Result<FluentContext>)
    ensures r.Ok? ==> r.value.name == ctx.name
    decreases |steps|
  {
    if |steps| == 0 then Ok(ctx)
    else
      var next :- ApplyCall(ctx, steps[0].name, steps[0].args);
      ApplySteps(next, steps[1..])
  }

  /** `parse_method_chain`. Only the three lists of the base call are kept: a
      `default(..)` written as the base call is dropped (src/lib.rs:244-247). */
  function ParseMethodChain(name: string, receiver: Expr, mname: string, args: seq<Expr>): (r: Result<FluentContext>)
    ensures r.Ok? ==> r.value.name == name
  {
    var chain :- Unchain(receiver, mname, args);
    var base :- ParseFunctionCall(name, chain.0, chain.1);
    ApplySteps(FluentContext(name, base.required, base.optional, base.excluded, None), chain.2)
  }

  /** `parse_fluent_expr`: the right-hand side of `Name: ...`. */
  function ParseFluentExpr(name: string, e: Expr): (r: Result<FluentContext>)
    ensures r.Ok? ==> r.value.name == name
    ensures !e.Call? && !e.MethodCall? ==> r.Err?
  {
    match e
    case Call(func, args) => ParseFunctionCall(name, func, args)
    case MethodCall(receiver, mname, args) => ParseMethodChain(name, receiver, mname, args)
    case _ => Err("expected function call like 'requires(field1, field2)'")
  }

  // ---------------------------------------------------------------------------
  // Group definitions

  /** One argument of a group definition (src/lib.rs:1059-1118). A call
      `all_fields(..)` ignores whatever is written between its parentheses. */
  function ParseGroupArg(arg: Expr): Result<GroupFieldRef> {
    match arg
    case Path(_) =>
      if GetIdent(arg).Some? then Ok(GroupField(GetIdent(arg).value)) else Err("expected field name")
    case Call(func, _) =>
      if GetIdent(func) == Some("all_fields") then Ok(GroupAllFields([]))
      else Err("expected field name or all_fields()")
    case MethodCall(receiver, name, args) =>
      if receiver.Call? then
        if GetIdent(receiver.func) == Some("all_fields") && name == "except" then
          var except :- ParseIdents(args, "expected field name in except clause");
          Ok(GroupAllFields(except))
        else Err("expected all_fields().except(...)")
      else Err("expected field name, all_fields(), or all_fields().except(...)")
    case _ => Err("expected field name, all_fields(), or all_fields().except(...)")
  }

  /** The arguments of a group definition, in order. */
  function ParseGroupArgs(args: seq<Expr>): (r: Result<seq<GroupFieldRef>>)
    ensures r.Ok? <==> forall i | 0 <= i < |args| :: ParseGroupArg(args[i]).Ok?
    ensures r.Ok? ==> |r.value| == |args| && forall i | 0 <= i < |args| :: ParseGroupArg(args[i]) == Ok(r.value[i])
  {
    if |args| == 0 then Ok([])
    else
      var head := ParseGroupArg(args[0]);
      var rest := ParseGroupArgs(args[1..]);
      assert forall i | 1 <= i < |args| :: args[i] == args[1..][i - 1];
      if head.Err? then Err(head.error)
      else if rest.Err? then Err(rest.error)
      else Ok([head.value] + rest.value)
  }

  /** `parse_single_group`: `name(arg, ...)`. */
  function ParseSingleGroup(func: Expr, args: seq<Expr>): (r: Result<(string, seq<GroupFieldRef>)>)
    ensures r.Ok? <==> GetIdent(func).Some? && ParseGroupArgs(args).Ok?
    ensures r.Ok? ==> func == Ident(r.value.0) && ParseGroupArgs(args) == Ok(r.value.1)
  {
    if GetIdent(func).None? then Err("expected group name")
    else
      var refs :- ParseGroupArgs(args);
      Ok((GetIdent(func).value, refs))
  }

  /** The name a group definition `name(..)` gives its group, if it has one. */
  function CalleeName(e: Expr): Option<string> {
    if e.Call? then GetIdent(e.func) else None
  }

  /** Whether some element of a tuple of group definitions defines group `n`. */
  predicate Defines(elems: seq<Expr>, n: string) {
    exists i | 0 <= i < |elems| :: CalleeName(elems[i]) == Some(n)
  }

  /** Element `i` is the last definition of its group in the tuple. */
  predicate LastDefinition(elems: seq<Expr>, i: int) {
    && 0 <= i < |elems|
    && forall j | i < j < |elems| :: CalleeName(elems[j]) != CalleeName(elems[i])
  }

  /** Whether an element of a tuple is a well-formed group definition. */
  predicate GroupCall(e: Expr) {
    e.Call? && ParseSingleGroup(e.func, e.args).Ok?
  }

  /** Every element of a non-empty tuple is a group definition exactly when
      its head and every element of its tail are. */
  lemma GroupCallsCons(elems: seq<Expr>)
    requires |elems| > 0
    ensures (forall i | 0 <= i < |elems| :: GroupCall(elems[i]))
      <==> GroupCall(elems[0]) && forall i | 0 <= i < |elems[1..]| :: GroupCall(elems[1..][i])
  {
    if GroupCall(elems[0]) && forall i | 0 <= i < |elems[1..]| :: GroupCall(elems[1..][i]) {
      forall i | 1 <= i < |elems| ensures GroupCall(elems[i]) {
        assert elems[i] == elems[1..][i - 1];
      }
    }
  }

  /** Adds the groups of a tuple `(g1(..), g2(..), ...)`; a later definition of
      the same name replaces an earlier one, as `HashMap::insert` does. */
  function InsertGroups(elems: seq<Expr>, acc: map<string, seq<GroupFieldRef>>): (r: Result<map<string, seq<GroupFieldRef>>>)
    ensures r.Ok? <==> forall i | 0 <= i < |elems| :: GroupCall(elems[i])
    ensures r.Ok? ==> forall n :: n in r.value <==> n in acc || Defines(elems, n)
    ensures r.Ok? ==> forall n | n in acc && !Defines(elems, n) :: r.value[n] == acc[n]
    ensures r.Ok? ==> forall i | LastDefinition(elems, i) ::
      && CalleeName(elems[i]).Some? && CalleeName(elems[i]).value in r.value
      && ParseGroupArgs(elems[i].args) == Ok(r.value[CalleeName(elems[i]).value])
    decreases |elems|
  {
    if |elems| == 0 then Ok(acc)
    else if !elems[0].Call? then Err("expected group definition like 'auth(user_id, token)'")
    else
      var group :- ParseSingleGroup(elems[0].func, elems[0].args);
      var r := InsertGroups(elems[1..], acc[group.0 := group.1]);
      GroupCallsCons(elems);
      if r.Err? then r
      else
        InsertGroupsStep(elems, acc, group.0, group.1, r.value);
        r
  }

  /** The inductive step of `InsertGroups`: the head's definition followed by
      the tail's. */
  lemma InsertGroupsStep(elems: seq<Expr>, acc: map<string, seq<GroupFieldRef>>, g: string,
                         refs: seq<GroupFieldRef>, m: map<string, seq<GroupFieldRef>>)
    requires |elems| > 0 && CalleeName(elems[0]) == Some(g)
    requires elems[0].Call? && ParseGroupArgs(elems[0].args) == Ok(refs)
    requires forall n :: n in m <==> n in acc[g := refs] || Defines(elems[1..], n)
    requires forall n | n in acc[g := refs] && !Defines(elems[1..], n) :: m[n] == acc[g := refs][n]
    requires forall i | LastDefinition(elems[1..], i) ::
      && CalleeName(elems[1..][i]).Some? && CalleeName(elems[1..][i]).value in m
      && ParseGroupArgs(elems[1..][i].args) == Ok(m[CalleeName(elems[1..][i]).value])
    ensures forall n :: n in m <==> n in acc || Defines(elems, n)
    ensures forall n | n in acc && !Defines(elems, n) :: m[n] == acc[n]
    ensures forall i | LastDefinition(elems, i) ::
      && CalleeName(elems[i]).Some? && CalleeName(elems[i]).value in m
      && ParseGroupArgs(elems[i].args) == Ok(m[CalleeName(elems[i]).value])
  {
    DefinesCons(elems);
    forall i | LastDefinition(elems, i)
      ensures CalleeName(elems[i]).Some? && CalleeName(elems[i]).value in m
      ensures ParseGroupArgs(elems[i].args) == Ok(m[CalleeName(elems[i]).value])
    {
      if i == 0 {
        LastHead(elems);
      } else {
        LastDefinitionTail(elems, i);
      }
    }
  }

  lemma DefinesCons(elems: seq<Expr>)
    requires |elems| > 0
    ensures forall n :: Defines(elems, n) <==> CalleeName(elems[0]) == Some(n) || Defines(elems[1..], n)
  {
    forall n ensures Defines(elems, n) <==> CalleeName(elems[0]) == Some(n) || Defines(elems[1..], n) {
      if Defines(elems, n) && CalleeName(elems[0]) != Some(n) {
        var i :| 0 <= i < |elems| && CalleeName(elems[i]) == Some(n);
        assert elems[1..][i - 1] == elems[i];
      }
      if Defines(elems[1..], n) {
        var i :| 0 <= i < |elems[1..]| && CalleeName(elems[1..][i]) == Some(n);
        assert elems[i + 1] == elems[1..][i];
      }
    }
  }

  lemma LastHead(elems: seq<Expr>)
    requires LastDefinition(elems, 0) && CalleeName(elems[0]).Some?
    ensures !Defines(elems[1..], CalleeName(elems[0]).value)
  {
  }

  lemma LastDefinitionTail(elems: seq<Expr>, i: int)
    requires LastDefinition(elems, i) && i > 0
    ensures LastDefinition(elems[1..], i - 1) && elems[1..][i - 1] == elems[i]
  {
    forall j | i - 1 < j < |elems[1..]|
      ensures CalleeName(elems[1..][j]) != CalleeName(elems[1..][i - 1])
    {
      assert elems[1..][j] == elems[j + 1];
    }
  }

  /** `parse_groups_expression`: the value of `groups = ...`. */
  function ParseGroupsExpression(e: Expr): (r: Result<map<string, seq<GroupFieldRef>>>)
    ensures r.Ok? <==> || (e.Call? && ParseSingleGroup(e.func, e.args).Ok?)
                       || (e.Tuple? && forall i | 0 <= i < |e.elems| :: GroupCall(e.elems[i]))
    ensures r.Ok? && e.Call? ==> r.value == map[GetIdent(e.func).value := ParseGroupArgs(e.args).value]
    ensures r.Ok? && e.Tuple? ==> forall n :: n in r.value <==> Defines(e.elems, n)
    ensures r.Ok? && e.Tuple? ==> forall i | LastDefinition(e.elems, i) ::
      && CalleeName(e.elems[i]).Some? && CalleeName(e.elems[i]).value in r.value
      && ParseGroupArgs(e.elems[i].args) == Ok(r.value[CalleeName(e.elems[i]).value])
  {
    match e
    case Call(func, args) =>
      var group :- ParseSingleGroup(func, args);
      Ok(map[group.0 := group.1])
    case Tuple(elems) => InsertGroups(elems, map[])
    case _ => Err("expected group definition like 'auth(user_id, token)' or tuple of groups")
  }

  // ---------------------------------------------------------------------------
  // Directives and the top-level argument list

  /** One top-level item: a bare variant name, a `key = value` directive, or a
      `Name: chain` context. */
  datatype MixedArg = Bare(name: string) | NameValue(name: string, value: Expr) | Context(name: string, expr: Expr)

  /** The value of `prefix` and `suffix`. */
  function ParseStringLit(v: Expr): (r: Result<string>)
    ensures r.Ok? <==> v.Lit? && v.lit.Str?
    ensures r.Ok? ==> v == Lit(Str(r.value))
  {
    if v.Lit? && v.lit.Str? then Ok(v.lit.text) else Err("expected string literal")
  }

  /** The value of `default = ...`: a string literal or an identifier naming a
      behaviour (src/lib.rs:885-902). */
  function ParseGlobalDefault(v: Expr): (r: Result<DefaultBehavior>)
    ensures r.Ok? <==> || (v.Lit? && v.lit.Str? && v.lit.text in {"required", "optional", "exclude"})
                       || (GetIdent(v).Some? && GetIdent(v).value in {"required", "optional", "exclude"})
    ensures r.Ok? ==> v == Lit(Str(BehaviorName(r.value))) || v == Ident(BehaviorName(r.value))
    ensures v.Path? && GetIdent(v).None? ==> r == Err("expected identifier or string literal")
    ensures !v.Path? && !(v.Lit? && v.lit.Str?) ==> r == Err("expected string literal or identifier")
  {
    var word :-
      if v.Lit? && v.lit.Str? then Ok(v.lit.text)
      else if v.Path? then
        if GetIdent(v).Some? then Ok(GetIdent(v).value) else Err("expected identifier or string literal")
      else Err("expected string literal or identifier");
    BehaviorNamed(word)
  }

  /** The value of `build_base` and `optional_base`: a boolean literal or the
      identifier `true` or `false`. */
  function ParseBoolValue(v: Expr): (r: Result<bool>)
    ensures r == Ok(true) <==> v == Lit(Bool(true)) || v == Ident("true")
    ensures r == Ok(false) <==> v == Lit(Bool(false)) || v == Ident("false")
    ensures GetIdent(v).Some? && r.Err? ==> r.error == "expected 'true' or 'false'"
    ensures v.Path? && GetIdent(v).None? ==> r == Err("expected boolean literal or identifier")
  {
    if v.Lit? && v.lit.Bool? then Ok(v.lit.flag)
    else if v.Path? then
      if GetIdent(v).None? then Err("expected boolean literal or identifier")
      else if GetIdent(v).value == "true" then Ok(true)
      else if GetIdent(v).value == "false" then Ok(false)
      else Err("expected 'true' or 'false'")
    else Err("expected boolean literal")
  }

  /** The value of `optional_attrs` and `required_attrs`: an array of attributes. */
  function ParseAttributeArray(v: Expr): (r: Result<seq<Attr>>)
    ensures r.Ok? <==> v.AttrArray?
    ensures r.Ok? ==> v == AttrArray(r.value)
  {
    if v.AttrArray? then Ok(v.attrs) else Err("expected array of attributes")
  }

  /** The directive keys the parser knows. */
  datatype DirectiveKey =
    | PrefixKey | SuffixKey | DefaultKey | GroupsKey
    | OptionalAttrsKey | RequiredAttrsKey | BuildBaseKey | OptionalBaseKey

  /** How each key is spelled in the rule source. */
  function KeySpelling(k: DirectiveKey): string {
    match k
    case PrefixKey => "prefix"
    case SuffixKey => "suffix"
    case DefaultKey => "default"
    case GroupsKey => "groups"
    case OptionalAttrsKey => "optional_attrs"
    case RequiredAttrsKey => "required_attrs"
    case BuildBaseKey => "build_base"
    case OptionalBaseKey => "optional_base"
  }

  /** Recognizes a directive key; any other name is unknown. */
  function KeyOf(name: string): (r: Option<DirectiveKey>)
    ensures r.Some? <==> name in {"prefix", "suffix", "default", "groups",
                                  "optional_attrs", "required_attrs", "build_base", "optional_base"}
    ensures r.Some? ==> KeySpelling(r.value) == name
  {
    if name == "prefix" then Some(PrefixKey)
    else if name == "suffix" then Some(SuffixKey)
    else if name == "default" then Some(DefaultKey)
    else if name == "groups" then Some(GroupsKey)
    else if name == "optional_attrs" then Some(OptionalAttrsKey)
    else if name == "required_attrs" then Some(RequiredAttrsKey)
    else if name == "build_base" then Some(BuildBaseKey)
    else if name == "optional_base" then Some(OptionalBaseKey)
    else None
  }

  /** Every directive key is recognised from its spelling. */
  lemma KeysRecognised()
    ensures forall k :: KeyOf(KeySpelling(k)) == Some(k)
  {
  }

  /** Applies one `key = value` directive (src/lib.rs:866-958). */
  function ApplyDirective(acc: VariantList, key: DirectiveKey, v: Expr): (r: Result<VariantList>)
    ensures r.Ok? ==> r.value.variants == acc.variants && r.value.contexts == acc.contexts
                      && r.value.fieldGroups == acc.fieldGroups
    ensures r.Ok? <==> match key
      case PrefixKey | SuffixKey => ParseStringLit(v).Ok?
      case DefaultKey => ParseGlobalDefault(v).Ok?
      case GroupsKey => ParseGroupsExpression(v).Ok?
      case OptionalAttrsKey | RequiredAttrsKey => ParseAttributeArray(v).Ok?
      case BuildBaseKey | OptionalBaseKey => ParseBoolValue(v).Ok?
    ensures r.Ok? && key == PrefixKey ==> r.value == acc.(prefix := Some(ParseStringLit(v).value))
    ensures r.Ok? && key == SuffixKey ==> r.value == acc.(suffix := Some(ParseStringLit(v).value))
    ensures r.Ok? && key == DefaultKey ==> r.value == acc.(globalDefault := Some(ParseGlobalDefault(v).value))
    ensures r.Ok? && key == GroupsKey ==> r.value == acc.(groupRefs := ParseGroupsExpression(v).value)
    ensures r.Ok? && key == OptionalAttrsKey ==> r.value == acc.(optionalAttrs := ParseAttributeArray(v).value)
    ensures r.Ok? && key == RequiredAttrsKey ==> r.value == acc.(requiredAttrs := ParseAttributeArray(v).value)
    ensures r.Ok? && key == BuildBaseKey ==> r.value == acc.(buildBase := ParseBoolValue(v).value)
    ensures r.Ok? && key == OptionalBaseKey ==> r.value == acc.(optionalBase := ParseBoolValue(v).value)
  {
    match key
    case PrefixKey => var s :- ParseStringLit(v); Ok(acc.(prefix := Some(s)))
    case SuffixKey => var s :- ParseStringLit(v); Ok(acc.(suffix := Some(s)))
    case DefaultKey => var b :- ParseGlobalDefault(v); Ok(acc.(globalDefault := Some(b)))
    case GroupsKey => var g :- ParseGroupsExpression(v); Ok(acc.(groupRefs := g))
    case OptionalAttrsKey => var a :- ParseAttributeArray(v); Ok(acc.(optionalAttrs := a))
    case RequiredAttrsKey => var a :- ParseAttributeArray(v); Ok(acc.(requiredAttrs := a))
    case BuildBaseKey => var b :- ParseBoolValue(v); Ok(acc.(buildBase := b))
    case OptionalBaseKey => var b :- ParseBoolValue(v); Ok(acc.(optionalBase := b))
  }

  /** The names that become variants: bare names and context names, in order. */
  function VariantNames(items: seq<MixedArg>): seq<string> {
    if |items| == 0 then []
    else (if items[0].NameValue? then [] else [items[0].name]) + VariantNames(items[1..])
  }

  /** The names of the context items, in order. */
  function ContextNames(items: seq<MixedArg>): seq<string> {
    if |items| == 0 then []
    else (if items[0].Context? then [items[0].name] else []) + ContextNames(items[1..])
  }

  /** The contexts the context items parse to, in order. */
  function ParsedContexts(items: seq<MixedArg>): seq<FluentContext> {
    if |items| == 0 then []
    else
      var own := if items[0].Context? && ParseFluentExpr(items[0].name, items[0].expr).Ok?
                 then [ParseFluentExpr(items[0].name, items[0].expr).value] else [];
      own + ParsedContexts(items[1..])
  }

  /** Processes one item: a bare name becomes a variant, a directive sets its
      value, and a context becomes both a variant and a fluent context. */
  function ApplyItem(acc: VariantList, item: MixedArg): (r: Result<VariantList>)
    ensures r.Ok? ==> r.value.variants == acc.variants + (if item.NameValue? then [] else [item.name])
    ensures r.Ok? ==> Names(r.value.contexts) == Names(acc.contexts) + (if item.Context? then [item.name] else [])
    ensures r.Ok? ==> r.value.fieldGroups == acc.fieldGroups
    ensures r.Ok? && item.Context? ==>
      ParseFluentExpr(item.name, item.expr).Ok? && r.value.contexts == acc.contexts + [ParseFluentExpr(item.name, item.expr).value]
    ensures r.Ok? && !item.Context? ==> r.value.contexts == acc.contexts
  {
    match item
    case Bare(n) => Ok(acc.(variants := acc.variants + [n]))
    case NameValue(name, v) =>
      if KeyOf(name).None? then Err("unknown parameter") else ApplyDirective(acc, KeyOf(name).value, v)
    case Context(n, e) =>
      var ctx :- ParseFluentExpr(n, e);
      NamesAppend(acc.contexts, [ctx]);
      Ok(acc.(variants := acc.variants + [n], contexts := acc.contexts + [ctx]))
  }

  /** Processes the items left to right, failing at the first bad one. */
  function ParseItems(items: seq<MixedArg>, acc: VariantList): (r: Result<VariantList>)
    ensures r.Ok? ==> r.value.variants == acc.variants + VariantNames(items)
    ensures r.Ok? ==> Names(r.value.contexts) == Names(acc.contexts) + ContextNames(items)
    ensures r.Ok? ==> r.value.fieldGroups == acc.fieldGroups
    ensures r.Ok? ==> r.value.contexts == acc.contexts + ParsedContexts(items)
    decreases |items|
  {
    if |items| == 0 then Ok(acc)
    else
      var next :- ApplyItem(acc, items[0]);
      var r := ParseItems(items[1..], next);
      if r.Err? then r
      else
        var vs := if items[0].NameValue? then [] else [items[0].name];
        var cs := if items[0].Context? then [items[0].name] else [];
        AppendAssoc(acc.variants, vs, VariantNames(items[1..]));
        AppendAssoc(Names(acc.contexts), cs, ContextNames(items[1..]));
        var ps := if items[0].Context? then [ParseFluentExpr(items[0].name, items[0].expr).value] else [];
        AppendAssoc(acc.contexts, ps, ParsedContexts(items[1..]));
        r
  }

  lemma {:induction false} NamesAppend(a: seq<FluentContext>, b: seq<FluentContext>)
    ensures Names(a + b) == Names(a) + Names(b)
  {
    if |a| == 0 {
      assert a + b == b;
    } else {
      assert (a + b)[1..] == a[1..] + b;
      NamesAppend(a[1..], b);
    }
  }

  /** The arguments before any item is read: `build_base` on, `optional_base` off,
      no prefix, suffix, default, groups or attributes (src/lib.rs:815-824). */
  const Initial: VariantList :=
    VariantList([], None, None, [], [], [], None, map[], map[], true, false)

  /** `parse_mixed_args`: the whole argument list; at least one variant is needed. */
  function ParseMixedArgs(items: seq<MixedArg>): (r: Result<VariantList>)
    ensures r.Ok? ==> |r.value.variants| > 0
    ensures r.Ok? ==> r.value.variants == VariantNames(items)
    ensures r.Ok? ==> Names(r.value.contexts) == ContextNames(items)
    ensures r.Ok? ==> r.value.fieldGroups == map[]
    ensures r.Ok? ==> r.value.contexts == ParsedContexts(items)
  {
    var cfg :- ParseItems(items, Initial);
    if |cfg.variants| == 0 then Err("no variants specified") else Ok(cfg)
  }
}

=== FILE: parser_laws.dfy ===
/** Properties of the rule parser: printing a context as a fluent chain and
    parsing it back gives the context again, calls accumulate in order, the
    source's quirks (a base `default(..)` is dropped, `all_fields(x)` in a group
    ignores `x`), the directive defaults, and the error cases. */
module ParserLaws {
  import opened Wrappers
  import opened Syntax
  import opened Rules
  import opened Parser
  import opened Seqs

  // ---------------------------------------------------------------------------
  // Printing rules back as expressions

  /** The expressions `x1, x2, ...` for a list of identifiers. */
  function Idents(xs: seq<string>): (es: seq<Expr>)
    ensures |es| == |xs| && forall i | 0 <= i < |xs| :: es[i] == Ident(xs[i])
  {
    seq(|xs|, i requires 0 <= i < |xs| => Ident(xs[i]))
  }

  /** A field reference as it is written in a chain. */
  function RenderRef(r: FieldRef): Expr {
    match r
    case Field(x) => Ident(x)
    case FieldWithType(x, ty) => Cast(Ident(x), ty)
    case AllFields(except) => MethodCall(Call(Ident("all_fields"), []), "except", Idents(except))
    case GroupWithExcept(g, except) => MethodCall(Ident(g), "except", Idents(except))
  }

  function RenderRefs(refs: seq<FieldRef>): (es: seq<Expr>)
    ensures |es| == |refs| && forall i | 0 <= i < |refs| :: es[i] == RenderRef(refs[i])
  {
    seq(|refs|, i requires 0 <= i < |refs| => RenderRef(refs[i]))
  }

  /** A context as the chain `requires(..).optional(..).excludes(..)`, followed by
      `.default(..)` when it has a default. */
  function RenderContext(c: FluentContext): Expr {
    var base := Call(Ident("requires"), RenderRefs(c.required));
    var withOptional := MethodCall(base, "optional", RenderRefs(c.optional));
    var withExcluded := MethodCall(withOptional, "excludes", RenderRefs(c.excluded));
    if c.defaultBehavior.Some? then
      MethodCall(withExcluded, "default", [Ident(BehaviorName(c.defaultBehavior.value))])
    else withExcluded
  }

  lemma ParseIdentsOfIdents(xs: seq<string>, msg: string)
    ensures ParseIdents(Idents(xs), msg) == Ok(xs)
  {
    var r := ParseIdents(Idents(xs), msg);
    assert r.Ok?;
    assert r.value == xs;
  }

  lemma ParseRenderRef(r: FieldRef)
    ensures ParseFieldRef(RenderRef(r)) == Ok(r)
  {
    match r
    case Field(x) =>
    case FieldWithType(x, ty) =>
    case AllFields(except) =>
      ParseIdentsOfIdents(except, "expected field name in except() arguments");
    case GroupWithExcept(g, except) =>
      ParseIdentsOfIdents(except, "expected field name in except() arguments");
  }

  lemma ParseRenderRefs(refs: seq<FieldRef>)
    ensures ParseFieldList(RenderRefs(refs)) == Ok(refs)
  {
    var es := RenderRefs(refs);
    forall i | 0 <= i < |refs|
      ensures ParseFieldRef(es[i]) == Ok(refs[i])
    {
      ParseRenderRef(refs[i]);
    }
    var r := ParseFieldList(es);
    assert r.value == refs;
  }

  lemma ParseSingleName(x: string)
    ensures ParseFieldList([Ident(x)]) == Ok([Field(x)])
  {
    ParseRenderRefs([Field(x)]);
    assert RenderRefs([Field(x)]) == [Ident(x)];
  }

  /** The three list calls of a printed context, one at a time. */
  lemma ListCallsParse(c: FluentContext)
    ensures ParseFunctionCall(c.name, Ident("requires"), RenderRefs(c.required))
      == Ok(FluentContext(c.name, c.required, [], [], None))
    ensures ApplyCall(FluentContext(c.name, c.required, [], [], None), "optional", RenderRefs(c.optional))
      == Ok(FluentContext(c.name, c.required, c.optional, [], None))
    ensures ApplyCall(FluentContext(c.name, c.required, c.optional, [], None), "excludes", RenderRefs(c.excluded))
      == Ok(FluentContext(c.name, c.required, c.optional, c.excluded, None))
  {
    ParseRenderRefs(c.required);
    ParseRenderRefs(c.optional);
    ParseRenderRefs(c.excluded);
    assert [] + c.required == c.required;
    assert [] + c.optional == c.optional;
    assert [] + c.excluded == c.excluded;
  }

  lemma TwoSteps(ctx: FluentContext, s1: Step, s2: Step)
    requires ApplyCall(ctx, s1.name, s1.args).Ok?
    ensures ApplySteps(ctx, [s1, s2]) == ApplyCall(ApplyCall(ctx, s1.name, s1.args).value, s2.name, s2.args)
  {
    var next := ApplyCall(ctx, s1.name, s1.args).value;
    assert [s1, s2][1..] == [s2];
    assert [s2][1..] == [];
    var last := ApplyCall(next, s2.name, s2.args);
    if last.Ok? {
      assert ApplySteps(last.value, []) == last;
    }
  }

  /** The steps of a printed context's chain. */
  function RenderedSteps(c: FluentContext): seq<Step> {
    [Step("optional", RenderRefs(c.optional)), Step("excludes", RenderRefs(c.excluded))]
      + (if c.defaultBehavior.Some? then [Step("default", [Ident(BehaviorName(c.defaultBehavior.value))])] else [])
  }

  lemma UnchainRendered(c: FluentContext)
    ensures RenderContext(c).MethodCall?
    ensures Unchain(RenderContext(c).receiver, RenderContext(c).name, RenderContext(c).args)
      == Ok((Ident("requires"), RenderRefs(c.required), RenderedSteps(c)))
  {
    var s1 := Step("optional", RenderRefs(c.optional));
    var s2 := Step("excludes", RenderRefs(c.excluded));
    var base := Call(Ident("requires"), RenderRefs(c.required));
    var withOptional := MethodCall(base, "optional", RenderRefs(c.optional));
    assert Unchain(base, "optional", RenderRefs(c.optional)) == Ok((Ident("requires"), RenderRefs(c.required), [s1]));
    assert [s1] + [s2] == [s1, s2];
    assert Unchain(withOptional, "excludes", RenderRefs(c.excluded))
      == Ok((Ident("requires"), RenderRefs(c.required), [s1, s2]));
    if c.defaultBehavior.Some? {
      var s3 := Step("default", [Ident(BehaviorName(c.defaultBehavior.value))]);
      assert [s1, s2] + [s3] == RenderedSteps(c);
    } else {
      assert RenderContext(c) == MethodCall(withOptional, "excludes", RenderRefs(c.excluded));
      assert RenderedSteps(c) == [s1, s2] + [];
      assert RenderedSteps(c) == [s1, s2];
    }
  }

  /** Printing a context and parsing the chain back under its name gives the
      same context: the parser reads every field reference form and every
      default, and the three calls accumulate into the right lists. */
  lemma RoundTrip(c: FluentContext)
    ensures ParseFluentExpr(c.name, RenderContext(c)) == Ok(c)
  {
    RenderedChainParses(c);
    RenderedStepsApply(c);
  }

  /** A printed context parses as its base `requires` call followed by its steps. */
  lemma RenderedChainParses(c: FluentContext)
    ensures ParseFluentExpr(c.name, RenderContext(c)) == ApplySteps(FluentContext(c.name, c.required, [], [], None), RenderedSteps(c))
  {
    ListCallsParse(c);
    UnchainRendered(c);
  }

  /** The steps of a printed context rebuild it from its required list. */
  lemma RenderedStepsApply(c: FluentContext)
    ensures ApplySteps(FluentContext(c.name, c.required, [], [], None), RenderedSteps(c)) == Ok(c)
  {
    ListCallsParse(c);
    var baseCtx := FluentContext(c.name, c.required, [], [], None);
    var afterOptional := FluentContext(c.name, c.required, c.optional, [], None);
    var afterExcluded := FluentContext(c.name, c.required, c.optional, c.excluded, None);
    var steps := RenderedSteps(c);
    if c.defaultBehavior.Some? {
      var s3 := steps[2];
      ParseSingleName(BehaviorName(c.defaultBehavior.value));
      assert ApplyCall(afterExcluded, "default", s3.args) == Ok(c);
      assert steps[1..] == [steps[1], s3];
      TwoSteps(afterOptional, steps[1], s3);
    } else {
      assert steps == [steps[0], steps[1]];
      TwoSteps(baseCtx, steps[0], steps[1]);
      assert afterExcluded == c;
    }
  }

  // ---------------------------------------------------------------------------
  // Accumulation and the dropped base default

  /** The call names of a chain's steps. */
  function StepNames(steps: seq<Step>): set<string> {
    set i | 0 <= i < |steps| :: steps[i].name
  }

  /** Applying the steps of a chain only appends to the three lists, and leaves
      the default alone unless some step is `default(..)`. */
  lemma {:induction false} StepsAccumulate(ctx: FluentContext, steps: seq<Step>)
    requires ApplySteps(ctx, steps).Ok?
    ensures var r := ApplySteps(ctx, steps).value;
      && ctx.required <= r.required
      && ctx.optional <= r.optional
      && ctx.excluded <= r.excluded
      && ("default" !in StepNames(steps) ==> r.defaultBehavior == ctx.defaultBehavior)
    decreases |steps|
  {
    if |steps| > 0 {
      var next := ApplyCall(ctx, steps[0].name, steps[0].args).value;
      assert StepNames(steps[1..]) <= StepNames(steps) by {
        forall x | x in StepNames(steps[1..]) ensures x in StepNames(steps) {
          var i :| 0 <= i < |steps[1..]| && steps[1..][i].name == x;
          assert steps[i + 1].name == x;
        }
      }
      assert steps[0].name in StepNames(steps);
      StepsAccumulate(next, steps[1..]);
    }
  }

  /** `requires(a).default(required)` keeps the default; with the call order
      reversed, `default(required).requires(a)`, the default written as the base
      call is lost and the context has none (src/lib.rs:244-247). */
  lemma BaseDefaultDropped()
    ensures ParseFluentExpr("Create", MethodCall(Call(Ident("requires"), [Ident("a")]), "default", [Ident("required")]))
      == Ok(FluentContext("Create", [Field("a")], [], [], Some(Required)))
    ensures ParseFluentExpr("Create", MethodCall(Call(Ident("default"), [Ident("required")]), "requires", [Ident("a")]))
      == Ok(FluentContext("Create", [Field("a")], [], [], None))
  {
    var e1 := MethodCall(Call(Ident("requires"), [Ident("a")]), "default", [Ident("required")]);
    ParseSingleName("a");
    ParseSingleName("required");
    assert [] + [Field("a")] == [Field("a")];
    assert Unchain(Call(Ident("requires"), [Ident("a")]), "default", [Ident("required")])
      == Ok((Ident("requires"), [Ident("a")], [Step("default", [Ident("required")])]));
    assert ApplySteps(FluentContext("Create", [Field("a")], [], [], None), [Step("default", [Ident("required")])])
      == Ok(FluentContext("Create", [Field("a")], [], [], Some(Required))) by {
      assert [Step("default", [Ident("required")])][1..] == [];
    }
    assert Unchain(Call(Ident("default"), [Ident("required")]), "requires", [Ident("a")])
      == Ok((Ident("default"), [Ident("required")], [Step("requires", [Ident("a")])]));
    assert ParseFunctionCall("Create", Ident("default"), [Ident("required")])
      == Ok(FluentContext("Create", [], [], [], Some(Required)));
    assert ApplySteps(FluentContext("Create", [], [], [], None), [Step("requires", [Ident("a")])])
      == Ok(FluentContext("Create", [Field("a")], [], [], None)) by {
      assert [Step("requires", [Ident("a")])][1..] == [];
    }
  }

  /** The field references the `call(..)` steps of a chain contribute, in order. */
  function Collected(steps: seq<Step>, call: string): seq<FieldRef>
    decreases |steps|
  {
    if |steps| == 0 then []
    else
      var own := if steps[0].name == call && ParseFieldList(steps[0].args).Ok?
                 then ParseFieldList(steps[0].args).value else [];
      own + Collected(steps[1..], call)
  }

  /** The behaviour the last `default(..)` step of a chain names, if any. */
  function LastDefault(steps: seq<Step>): Option<DefaultBehavior>
    decreases |steps|
  {
    if |steps| == 0 then None
    else
      var later := LastDefault(steps[1..]);
      if later.Some? then later
      else if steps[0].name == "default" && ParseFieldList(steps[0].args).Ok?
              && ParseDefaultArg(ParseFieldList(steps[0].args).value).Ok?
      then Some(ParseDefaultArg(ParseFieldList(steps[0].args).value).value)
      else None
  }

  /** Each list of a chain's result is the starting list followed by the
      arguments of the same-named steps, in chain order; the default is the
      last `default(..)` step's, or the starting one when there is none. */
  lemma {:induction false} StepsCollect(ctx: FluentContext, steps: seq<Step>)
    requires ApplySteps(ctx, steps).Ok?
    ensures var r := ApplySteps(ctx, steps).value;
      && r.name == ctx.name
      && r.required == ctx.required + Collected(steps, "requires")
      && r.optional == ctx.optional + Collected(steps, "optional")
      && r.excluded == ctx.excluded + Collected(steps, "excludes")
      && r.defaultBehavior == (if LastDefault(steps).Some? then LastDefault(steps) else ctx.defaultBehavior)
    decreases |steps|
  {
    if |steps| > 0 {
      var next := ApplyCall(ctx, steps[0].name, steps[0].args).value;
      StepsCollect(next, steps[1..]);
      AppendAssoc(ctx.required, Collected([steps[0]], "requires"), Collected(steps[1..], "requires"));
      AppendAssoc(ctx.optional, Collected([steps[0]], "optional"), Collected(steps[1..], "optional"));
      AppendAssoc(ctx.excluded, Collected([steps[0]], "excludes"), Collected(steps[1..], "excludes"));
      CollectedCons(steps, "requires");
      CollectedCons(steps, "optional");
      CollectedCons(steps, "excludes");
      CallContribution(ctx, steps[0]);
      LastDefaultCons(steps);
    }
  }

  /** One step, as the one-step instance of `StepsCollect`. */
  lemma CallContribution(ctx: FluentContext, s: Step)
    requires ApplyCall(ctx, s.name, s.args).Ok?
    ensures var r := ApplyCall(ctx, s.name, s.args).value;
      && r.name == ctx.name
      && r.required == ctx.required + Collected([s], "requires")
      && r.optional == ctx.optional + Collected([s], "optional")
      && r.excluded == ctx.excluded + Collected([s], "excludes")
      && r.defaultBehavior == (if LastDefault([s]).Some? then LastDefault([s]) else ctx.defaultBehavior)
  {
    assert [s][1..] == [];
    assert [s][0] == s;
    var fields := ParseFieldList(s.args).value;
    assert fields + [] == fields;
    assert ctx.required + [] == ctx.required;
    assert ctx.optional + [] == ctx.optional;
    assert ctx.excluded + [] == ctx.excluded;
  }

  lemma LastDefaultCons(steps: seq<Step>)
    requires |steps| > 0
    ensures LastDefault(steps) ==
      (if LastDefault(steps[1..]).Some? then LastDefault(steps[1..]) else LastDefault([steps[0]]))
  {
    assert [steps[0]][1..] == [];
  }

  lemma CollectedCons(steps: seq<Step>, call: string)
    requires |steps| > 0
    ensures Collected(steps, call) == Collected([steps[0]], call) + Collected(steps[1..], call)
  {
    assert [steps[0]][1..] == [];
    var own := Collected([steps[0]], call);
    assert own + [] == own;
  }

  /** Whatever a chain's base call is, its default is lost unless a later step
      is `default(..)` (src/lib.rs:244-247). */
  lemma ChainWithoutDefaultStep(name: string, receiver: Expr, mname: string, args: seq<Expr>)
    requires ParseMethodChain(name, receiver, mname, args).Ok?
    ensures "default" !in StepNames(Unchain(receiver, mname, args).value.2) ==>
      ParseMethodChain(name, receiver, mname, args).value.defaultBehavior == None
  {
    var chain := Unchain(receiver, mname, args).value;
    var base := ParseFunctionCall(name, chain.0, chain.1).value;
    StepsAccumulate(FluentContext(name, base.required, base.optional, base.excluded, None), chain.2);
  }

  /** Rebuilds a chain from its base call and its steps. */
  function Rechain(func: Expr, baseArgs: seq<Expr>, steps: seq<Step>): Expr
    decreases |steps|
  {
    if |steps| == 0 then Call(func, baseArgs)
    else
      var last := steps[|steps| - 1];
      MethodCall(Rechain(func, baseArgs, steps[..|steps| - 1]), last.name, last.args)
  }

  /** Taking a chain apart loses nothing: rebuilding gives the chain back. */
  lemma {:induction false} UnchainRebuilds(receiver: Expr, name: string, args: seq<Expr>)
    requires Unchain(receiver, name, args).Ok?
    ensures var c := Unchain(receiver, name, args).value;
      Rechain(c.0, c.1, c.2) == MethodCall(receiver, name, args)
    decreases receiver
  {
    var c := Unchain(receiver, name, args).value;
    assert c.2[..|c.2| - 1] == Unchain(receiver, name, args).value.2[..|c.2| - 1];
    match receiver
    case MethodCall(inner, innerName, innerArgs) =>
      UnchainRebuilds(inner, innerName, innerArgs);
      var d := Unchain(inner, innerName, innerArgs).value;
      assert c.2 == d.2 + [Step(name, args)];
      assert c.2[..|c.2| - 1] == d.2;
    case Call(func, baseArgs) =>
      assert c.2[..|c.2| - 1] == [];
  }

  /** Every chain with at least one step is taken apart into the pieces it was
      built from. */
  lemma {:induction false} UnchainOfRechain(func: Expr, baseArgs: seq<Expr>, steps: seq<Step>)
    requires |steps| > 0
    ensures var e := Rechain(func, baseArgs, steps);
      e.MethodCall? && Unchain(e.receiver, e.name, e.args) == Ok((func, baseArgs, steps))
    decreases |steps|
  {
    var init := steps[..|steps| - 1];
    if |init| > 0 {
      UnchainOfRechain(func, baseArgs, init);
    }
    assert init + [steps[|steps| - 1]] == steps;
  }

  /** A chain call other than the four known ones is an error, wherever it stands. */
  lemma {:induction false} UnknownCallFails(ctx: FluentContext, steps: seq<Step>)
    requires exists i | 0 <= i < |steps| :: steps[i].name !in {"requires", "optional", "excludes", "default"}
    ensures ApplySteps(ctx, steps).Err?
    decreases |steps|
  {
    var i :| 0 <= i < |steps| && steps[i].name !in {"requires", "optional", "excludes", "default"};
    var first := ApplyCall(ctx, steps[0].name, steps[0].args);
    if first.Ok? {
      assert i > 0;
      assert steps[1..][i - 1] == steps[i];
      UnknownCallFails(first.value, steps[1..]);
    }
  }

  /** `default(..)` takes exactly one of `required`, `optional`, `exclude`. */
  lemma DefaultArgumentLaw(ctx: FluentContext, args: seq<Expr>)
    ensures ApplyCall(ctx, "default", args).Ok? <==>
      |args| == 1 && GetIdent(args[0]).Some? && GetIdent(args[0]).value in {"required", "optional", "exclude"}
  {
    var fields := ParseFieldList(args);
    if |args| == 1 && fields.Ok? {
      assert ParseFieldRef(args[0]) == Ok(fields.value[0]);
      assert fields.value[0].Field? <==> GetIdent(args[0]).Some?;
    }
  }

  // ---------------------------------------------------------------------------
  // Group definitions

  /** A group member as it is written in a group definition. */
  function RenderGroupRef(r: GroupFieldRef): Expr {
    match r
    case GroupField(x) => Ident(x)
    case GroupAllFields(except) => MethodCall(Call(Ident("all_fields"), []), "except", Idents(except))
  }

  /** Printing a group definition and parsing it back gives the same group. */
  lemma GroupRoundTrip(name: string, refs: seq<GroupFieldRef>)
    ensures ParseSingleGroup(Ident(name), seq(|refs|, i requires 0 <= i < |refs| => RenderGroupRef(refs[i])))
      == Ok((name, refs))
  {
    var args := seq(|refs|, i requires 0 <= i < |refs| => RenderGroupRef(refs[i]));
    forall i | 0 <= i < |refs|
      ensures ParseGroupArg(args[i]) == Ok(refs[i])
    {
      match refs[i]
      case GroupField(x) =>
      case GroupAllFields(except) =>
        ParseIdentsOfIdents(except, "expected field name in except clause");
    }
    var r := ParseGroupArgs(args);
    assert r.value == refs;
  }

  /** Inside a group definition `all_fields(x)` means every field, with no
      exception (src/lib.rs:1068-1073); inside a context the same text makes `x`
      an exception (src/lib.rs:327-341). */
  lemma AllFieldsArgumentsIgnoredInGroups(x: string)
    ensures ParseGroupArg(Call(Ident("all_fields"), [Ident(x)])) == Ok(GroupAllFields([]))
    ensures ParseFieldRef(Call(Ident("all_fields"), [Ident(x)])) == Ok(AllFields([x]))
  {
    ParseIdentsOfIdents([x], "expected field name in all_fields() arguments");
    assert Idents([x]) == [Ident(x)];
  }

  // ---------------------------------------------------------------------------
  // The top-level argument list

  /** Whether some directive of the list sets `key`. */
  predicate Sets(items: seq<MixedArg>, key: DirectiveKey) {
    exists i | 0 <= i < |items| :: items[i].NameValue? && KeyOf(items[i].name) == Some(key)
  }

  /** The value a directive key controls, whatever its type. */
  datatype Setting =
    | TextSetting(text: Option<string>)
    | BehaviorSetting(behavior: Option<DefaultBehavior>)
    | GroupsSetting(groups: map<string, seq<GroupFieldRef>>)
    | AttrsSetting(attrs: seq<Attr>)
    | FlagSetting(flag: bool)

  function SettingOf(cfg: VariantList, key: DirectiveKey): Setting {
    match key
    case PrefixKey => TextSetting(cfg.prefix)
    case SuffixKey => TextSetting(cfg.suffix)
    case DefaultKey => BehaviorSetting(cfg.globalDefault)
    case GroupsKey => GroupsSetting(cfg.groupRefs)
    case OptionalAttrsKey => AttrsSetting(cfg.optionalAttrs)
    case RequiredAttrsKey => AttrsSetting(cfg.requiredAttrs)
    case BuildBaseKey => FlagSetting(cfg.buildBase)
    case OptionalBaseKey => FlagSetting(cfg.optionalBase)
  }

  /** An item changes at most the value of its own directive key. */
  lemma ApplyItemFrame(acc: VariantList, item: MixedArg, key: DirectiveKey)
    requires ApplyItem(acc, item).Ok?
    requires !(item.NameValue? && KeyOf(item.name) == Some(key))
    ensures SettingOf(ApplyItem(acc, item).value, key) == SettingOf(acc, key)
  {
    match item
    case Bare(n) =>
    case Context(n, e) =>
      var ctx := ParseFluentExpr(n, e).value;
      assert ApplyItem(acc, item).value == acc.(variants := acc.variants + [n], contexts := acc.contexts + [ctx]);
    case NameValue(name, v) =>
      ApplyDirectiveFrame(acc, KeyOf(name).value, v, key);
  }

  lemma ApplyDirectiveFrame(acc: VariantList, k: DirectiveKey, v: Expr, key: DirectiveKey)
    requires ApplyDirective(acc, k, v).Ok?
    requires k != key
    ensures SettingOf(ApplyDirective(acc, k, v).value, key) == SettingOf(acc, key)
  {
    var r := ApplyDirective(acc, k, v).value;
    match k
    case PrefixKey => assert r == acc.(prefix := r.prefix);
    case SuffixKey => assert r == acc.(suffix := r.suffix);
    case DefaultKey => assert r == acc.(globalDefault := r.globalDefault);
    case GroupsKey => assert r == acc.(groupRefs := r.groupRefs);
    case OptionalAttrsKey => assert r == acc.(optionalAttrs := r.optionalAttrs);
    case RequiredAttrsKey => assert r == acc.(requiredAttrs := r.requiredAttrs);
    case BuildBaseKey => assert r == acc.(buildBase := r.buildBase);
    case OptionalBaseKey => assert r == acc.(optionalBase := r.optionalBase);
  }

  /** A value the items never set keeps the value it had before them. */
  lemma {:induction false} ItemsKeepUnset(items: seq<MixedArg>, acc: VariantList, key: DirectiveKey)
    requires ParseItems(items, acc).Ok?
    requires !Sets(items, key)
    ensures SettingOf(ParseItems(items, acc).value, key) == SettingOf(acc, key)
    decreases |items|
  {
    if |items| > 0 {
      var next := ApplyItem(acc, items[0]).value;
      ApplyItemFrame(acc, items[0], key);
      ItemsKeepUnset(items[1..], next, key);
    }
  }

  /** The value a directive `key = v` gives its key, or `None` when `v` does not
      parse for that key. */
  function ValueSetting(key: DirectiveKey, v: Expr): Option<Setting> {
    match key
    case PrefixKey | SuffixKey =>
      var t := ParseStringLit(v);
      if t.Ok? then Some(TextSetting(Some(t.value))) else None
    case DefaultKey =>
      var b := ParseGlobalDefault(v);
      if b.Ok? then Some(BehaviorSetting(Some(b.value))) else None
    case GroupsKey =>
      var g := ParseGroupsExpression(v);
      if g.Ok? then Some(GroupsSetting(g.value)) else None
    case OptionalAttrsKey | RequiredAttrsKey =>
      var a := ParseAttributeArray(v);
      if a.Ok? then Some(AttrsSetting(a.value)) else None
    case BuildBaseKey | OptionalBaseKey =>
      var f := ParseBoolValue(v);
      if f.Ok? then Some(FlagSetting(f.value)) else None
  }

  /** A directive sets its key to the value it spells, whatever came before;
      it succeeds exactly when that value parses. */
  lemma DirectiveSets(acc: VariantList, key: DirectiveKey, v: Expr)
    ensures ApplyDirective(acc, key, v).Ok? <==> ValueSetting(key, v).Some?
    ensures ApplyDirective(acc, key, v).Ok? ==>
      ValueSetting(key, v) == Some(SettingOf(ApplyDirective(acc, key, v).value, key))
  {
  }

  /** When a key is set more than once, the last directive decides its value:
      every directive overwrites the variable it controls (src/lib.rs:866-958). */
  lemma {:induction false} LastDirectiveWins(items: seq<MixedArg>, acc: VariantList, key: DirectiveKey, i: int)
    requires ParseItems(items, acc).Ok?
    requires 0 <= i < |items| && items[i].NameValue? && KeyOf(items[i].name) == Some(key)
    requires !Sets(items[i + 1..], key)
    ensures ValueSetting(key, items[i].value) == Some(SettingOf(ParseItems(items, acc).value, key))
    decreases |items|
  {
    var next := ApplyItem(acc, items[0]).value;
    if i == 0 {
      DirectiveSets(acc, key, items[0].value);
      ItemsKeepUnset(items[1..], next, key);
    } else {
      assert items[1..][i - 1] == items[i];
      assert items[1..][i..] == items[i + 1..];
      LastDirectiveWins(items[1..], next, key, i - 1);
    }
  }

  /** Without the corresponding directive, `build_base` is on, `optional_base` is
      off, and there is no prefix, suffix, global default, group or extra
      attribute (src/lib.rs:815-824). */
  lemma DirectiveDefaults(items: seq<MixedArg>)
    requires ParseMixedArgs(items).Ok?
    ensures var cfg := ParseMixedArgs(items).value;
      && (!Sets(items, BuildBaseKey) ==> cfg.buildBase)
      && (!Sets(items, OptionalBaseKey) ==> !cfg.optionalBase)
      && (!Sets(items, PrefixKey) ==> cfg.prefix == None)
      && (!Sets(items, SuffixKey) ==> cfg.suffix == None)
      && (!Sets(items, DefaultKey) ==> cfg.globalDefault == None)
      && (!Sets(items, GroupsKey) ==> cfg.groupRefs == map[])
      && (!Sets(items, OptionalAttrsKey) ==> cfg.optionalAttrs == [])
      && (!Sets(items, RequiredAttrsKey) ==> cfg.requiredAttrs == [])
  {
    var cfg := ParseMixedArgs(items).value;
    forall k: DirectiveKey | !Sets(items, k)
      ensures SettingOf(cfg, k) == SettingOf(Initial, k)
    {
      UnsetKeepsInitial(items, k);
    }
    InitialSettings(items, cfg);
  }

  /** Reads the initial settings back as the fields of the configuration. */
  lemma InitialSettings(items: seq<MixedArg>, cfg: VariantList)
    requires forall k: DirectiveKey | !Sets(items, k) :: SettingOf(cfg, k) == SettingOf(Initial, k)
    ensures && (!Sets(items, BuildBaseKey) ==> cfg.buildBase)
      && (!Sets(items, OptionalBaseKey) ==> !cfg.optionalBase)
      && (!Sets(items, PrefixKey) ==> cfg.prefix == None)
      && (!Sets(items, SuffixKey) ==> cfg.suffix == None)
      && (!Sets(items, DefaultKey) ==> cfg.globalDefault == None)
      && (!Sets(items, GroupsKey) ==> cfg.groupRefs == map[])
      && (!Sets(items, OptionalAttrsKey) ==> cfg.optionalAttrs == [])
      && (!Sets(items, RequiredAttrsKey) ==> cfg.requiredAttrs == [])
  {
    assert SettingOf(Initial, BuildBaseKey) == FlagSetting(true);
  }

  /** A key no directive sets keeps its initial value through the whole
      argument list. */
  lemma UnsetKeepsInitial(items: seq<MixedArg>, key: DirectiveKey)
    requires ParseMixedArgs(items).Ok?
    requires !Sets(items, key)
    ensures SettingOf(ParseMixedArgs(items).value, key) == SettingOf(Initial, key)
  {
    ItemsKeepUnset(items, Initial, key);
  }

  /** A directive whose key the parser does not know makes parsing fail. */
  lemma {:induction false} UnknownDirectiveFails(items: seq<MixedArg>, acc: VariantList)
    requires exists i | 0 <= i < |items| :: items[i].NameValue? && KeyOf(items[i].name).None?
    ensures ParseItems(items, acc).Err?
    decreases |items|
  {
    var i :| 0 <= i < |items| && items[i].NameValue? && KeyOf(items[i].name).None?;
    if i > 0 && ApplyItem(acc, items[0]).Ok? {
      assert items[1..][i - 1] == items[i];
      UnknownDirectiveFails(items[1..], ApplyItem(acc, items[0]).value);
    }
  }

  lemma {:induction false} ContextNamesAreVariantNames(items: seq<MixedArg>)
    ensures forall n | n in ContextNames(items) :: n in VariantNames(items)
  {
    if |items| > 0 {
      ContextNamesAreVariantNames(items[1..]);
    }
  }

  /** Every context the parser produces is also one of the variants to generate,
      which is why the unknown-variant check of src/lib.rs:476-492 never fires. */
  lemma ContextsAreVariants(items: seq<MixedArg>)
    requires ParseMixedArgs(items).Ok?
    ensures var cfg := ParseMixedArgs(items).value;
      forall i | 0 <= i < |cfg.contexts| :: cfg.contexts[i].name in cfg.variants
  {
    var cfg := ParseMixedArgs(items).value;
    ContextNamesAreVariantNames(items);
    forall i | 0 <= i < |cfg.contexts| ensures cfg.contexts[i].name in cfg.variants {
      assert Names(cfg.contexts)[i] == cfg.contexts[i].name;
      assert cfg.contexts[i].name in ContextNames(items);
    }
  }

  /** An argument list made only of directives names no variant and is rejected. */
  lemma {:induction false} NoVariantsFails(items: seq<MixedArg>)
    requires forall i | 0 <= i < |items| :: items[i].NameValue?
    ensures ParseMixedArgs(items).Err?
  {
    assert VariantNames(items) == [] by {
      NoNamesInDirectives(items);
    }
  }

  lemma {:induction false} NoNamesInDirectives(items: seq<MixedArg>)
    requires forall i | 0 <= i < |items| :: items[i].NameValue?
    ensures VariantNames(items) == []
  {
    if |items| > 0 {
      assert forall i | 0 <= i < |items[1..]| :: items[1..][i] == items[i + 1];
      NoNamesInDirectives(items[1..]);
    }
  }
}

=== FILE: resolver.dfy ===
/** The generation step of `expand_context_variants` (src/lib.rs:466-629): from
    the classified fields, one struct per variant and, optionally, the base
    struct. The output is kept as data (names, attributes, types); turning it
    into Rust tokens is left out. */
module Resolver {
  import opened Wrappers
  import opened Syntax
  import opened Rules
  import opened Classifier

  /** A generated field: attributes, name and type. Its visibility is the
      declared one and is not modelled. */
  datatype OutField = OutField(name: string, attrs: seq<Attr>, ty: Ty)

  /** A generated struct. Generics and the where clause are copied unchanged and
      are not modelled. */
  datatype OutStruct = OutStruct(name: string, attrs: seq<Attr>, fields: seq<OutField>)

  /** Everything the macro emits: the base struct when `build_base` holds, and
      one struct per variant, in variant order. */
  datatype Expansion = Expansion(base: Option<OutStruct>, variants: seq<OutStruct>)

  // ---------------------------------------------------------------------------
  // One field in one variant

  /** The fate the generator gives a field in a variant: excluded wins over
      optional, optional over required, and a variant no context mentions
      gets optional fields. */
  function FinalFate(spec: FieldSpec, v: string): (k: DefaultBehavior)
    ensures k == Exclude <==> v in spec.neverIn
    ensures k == Required ==> v in spec.requiredIn
    ensures v !in spec.requiredIn ==> k != Required
    ensures v !in spec.neverIn ==> (k == Required <==> v in spec.requiredIn && v !in spec.optionalIn)
  {
    if v in spec.neverIn then Exclude
    else if v in spec.optionalIn then Optional
    else if v in spec.requiredIn then Required
    else Optional
  }

  /** The variant's type override for the field, else the declared type. */
  function EffectiveType(spec: FieldSpec, v: string): Ty {
    if v in spec.variantTypes then spec.variantTypes[v] else spec.ty
  }

  /** The type of the field in a variant. A required field keeps its type; an
      optional one is wrapped in `Option` unless the type in effect or the
      declared type already is an `Option`. */
  function VariantFieldType(spec: FieldSpec, v: string, required: bool): (t: Ty)
    ensures required ==> t == EffectiveType(spec, v)
    ensures !required && !spec.isOption ==> t == Optionalize(EffectiveType(spec, v))
    ensures !required && spec.isOption ==> t == EffectiveType(spec, v)
    ensures IsOptionType(EffectiveType(spec, v)) ==> t == EffectiveType(spec, v)
  {
    var eff := EffectiveType(spec, v);
    if required then eff
    else if IsOptionType(eff) || spec.isOption then eff
    else WrapOption(eff)
  }

  /** The field as it appears in a variant, or nothing when it is excluded. Its
      attributes are the kept ones, then the field's own conditional ones, then
      the arguments' conditional ones. */
  function VariantField(spec: FieldSpec, v: string, optionalAttrs: seq<Attr>, requiredAttrs: seq<Attr>): (r: Option<OutField>)
    ensures r.None? <==> FinalFate(spec, v) == Exclude
    ensures r.Some? ==> r.value.name == spec.name
    ensures r.Some? ==> r.value.ty == VariantFieldType(spec, v, FinalFate(spec, v) == Required)
    ensures r.Some? && FinalFate(spec, v) == Required ==> r.value.attrs == spec.attrs + spec.requiredAttrs + requiredAttrs
    ensures r.Some? && FinalFate(spec, v) == Optional ==> r.value.attrs == spec.attrs + spec.optionalAttrs + optionalAttrs
  {
    if v in spec.neverIn then None
    else
      var required := v !in spec.optionalIn && v in spec.requiredIn;
      var attrs := if required then spec.attrs + spec.requiredAttrs + requiredAttrs
                   else spec.attrs + spec.optionalAttrs + optionalAttrs;
      Some(OutField(spec.name, attrs, VariantFieldType(spec, v, required)))
  }

  /** The fields of a variant, in declaration order, without the excluded ones. */
  function VariantFields(specs: seq<FieldSpec>, v: string, cfg: VariantList): (r: seq<OutField>)
    ensures |r| <= |specs|
    ensures forall o :: o in r <==> exists i | 0 <= i < |specs| :: VariantField(specs[i], v, cfg.optionalAttrs, cfg.requiredAttrs) == Some(o)
  {
    if |specs| == 0 then []
    else
      var head := VariantField(specs[0], v, cfg.optionalAttrs, cfg.requiredAttrs);
      var rest := VariantFields(specs[1..], v, cfg);
      assert forall i | 1 <= i < |specs| :: specs[i] == specs[1..][i - 1];
      (if head.Some? then [head.value] else []) + rest
  }

  /** Fields keep their declaration order: the variant's fields for a
      concatenation of declarations are those of each part, one after the other. */
  lemma {:induction false} VariantFieldsAppend(a: seq<FieldSpec>, b: seq<FieldSpec>, v: string, cfg: VariantList)
    ensures VariantFields(a + b, v, cfg) == VariantFields(a, v, cfg) + VariantFields(b, v, cfg)
    decreases |a|
  {
    if |a| == 0 {
      assert a + b == b;
    } else {
      assert (a + b)[1..] == a[1..] + b;
      VariantFieldsAppend(a[1..], b, v, cfg);
      var head := VariantField(a[0], v, cfg.optionalAttrs, cfg.requiredAttrs);
      var h := if head.Some? then [head.value] else [];
      assert (h + VariantFields(a[1..], v, cfg)) + VariantFields(b, v, cfg)
        == h + (VariantFields(a[1..], v, cfg) + VariantFields(b, v, cfg));
    }
  }

  /** A single declaration contributes its field, unless the variant excludes it. */
  lemma VariantFieldsSingle(s: FieldSpec, v: string, cfg: VariantList)
    ensures VariantFields([s], v, cfg)
      == if FinalFate(s, v) == Exclude then [] else [VariantField(s, v, cfg.optionalAttrs, cfg.requiredAttrs).value]
  {
    assert [s][1..] == [];
  }

  /** The name of a variant's struct: prefix, variant, suffix. */
  function VariantName(cfg: VariantList, v: string): (n: string)
    ensures |n| == |cfg.prefix.GetOr("")| + |v| + |cfg.suffix.GetOr("")|
    ensures var p, s := cfg.prefix.GetOr(""), cfg.suffix.GetOr("");
      n[..|p|] == p && n[|p|..|p| + |v|] == v && n[|p| + |v|..] == s
    ensures cfg.prefix.None? && cfg.suffix.None? ==> n == v
  {
    cfg.prefix.GetOr("") + v + cfg.suffix.GetOr("")
  }

  /** Under one prefix and suffix, distinct variants get distinct struct names. */
  lemma VariantNameInjective(cfg: VariantList, v: string, w: string)
    requires VariantName(cfg, v) == VariantName(cfg, w)
    ensures v == w
  {
    var p := cfg.prefix.GetOr("");
    var s := cfg.suffix.GetOr("");
    assert |v| == |w|;
    assert v == VariantName(cfg, v)[|p|..|p| + |v|];
    assert w == VariantName(cfg, w)[|p|..|p| + |w|];
  }

  /** A variant's struct. */
  function VariantStruct(specs: seq<FieldSpec>, v: string, cfg: VariantList, structAttrs: seq<Attr>): OutStruct {
    OutStruct(VariantName(cfg, v), structAttrs, VariantFields(specs, v, cfg))
  }

  // ---------------------------------------------------------------------------
  // The base struct

  /** A field of the base struct: the kept attributes, then the `when_base`
      ones; with `optional_base`, a type that is not yet an `Option` becomes
      `Option<T>`. */
  function BaseField(spec: FieldSpec, optionalBase: bool): (r: OutField)
    ensures r.name == spec.name && r.attrs == spec.attrs + spec.baseAttrs
    ensures !optionalBase || spec.isOption ==> r.ty == spec.ty
    ensures optionalBase && !spec.isOption ==> r.ty == BareOption(spec.ty)
  {
    OutField(spec.name, spec.attrs + spec.baseAttrs, if optionalBase && !spec.isOption then BareOption(spec.ty) else spec.ty)
  }

  function BaseFields(specs: seq<FieldSpec>, optionalBase: bool): (r: seq<OutField>)
    ensures |r| == |specs| && forall i | 0 <= i < |specs| :: r[i] == BaseField(specs[i], optionalBase)
  {
    seq(|specs|, i requires 0 <= i < |specs| => BaseField(specs[i], optionalBase))
  }

  // ---------------------------------------------------------------------------
  // Whole output

  /** The struct attributes that are copied: all but the `variants` attribute
      itself. */
  function StructAttrs(attrs: seq<FieldAttr>): (r: seq<Attr>)
    ensures forall a :: a in r <==> exists i | 0 <= i < |attrs| :: !IsMacroAttr(attrs[i], "variants") && attrs[i].attr == a
  {
    if |attrs| == 0 then []
    else
      var rest := StructAttrs(attrs[1..]);
      assert forall i | 1 <= i < |attrs| :: attrs[i] == attrs[1..][i - 1];
      (if IsMacroAttr(attrs[0], "variants") then [] else [attrs[0].attr]) + rest
  }

  /** The whole output for a struct named `name`. */
  function Generate(name: string, attrs: seq<FieldAttr>, specs: seq<FieldSpec>, cfg: VariantList): (e: Expansion)
    ensures e.base.Some? <==> cfg.buildBase
    ensures e.base.Some? ==> e.base.value == OutStruct(name, StructAttrs(attrs), BaseFields(specs, cfg.optionalBase))
    ensures |e.variants| == |cfg.variants|
    ensures forall i | 0 <= i < |cfg.variants| :: e.variants[i] == VariantStruct(specs, cfg.variants[i], cfg, StructAttrs(attrs))
  {
    var structAttrs := StructAttrs(attrs);
    var variants := seq(|cfg.variants|, i requires 0 <= i < |cfg.variants| => VariantStruct(specs, cfg.variants[i], cfg, structAttrs));
    Expansion(if cfg.buildBase then Some(OutStruct(name, structAttrs, BaseFields(specs, cfg.optionalBase))) else None, variants)
  }

  // ---------------------------------------------------------------------------
  // The unknown-variant check

  /** The first name of `names` that is not a variant, if any. */
  function Unknown(names: seq<string>, variants: seq<string>): (r: Option<string>)
    ensures r.None? <==> forall n | n in names :: n in variants
    ensures r.Some? ==> r.value in names && r.value !in variants
  {
    if |names| == 0 then None
    else if names[0] !in variants then Some(names[0])
    else Unknown(names[1..], variants)
  }

  /** The check of src/lib.rs:476-492: every context name a field was sorted
      under must be a variant. */
  function CheckKnownVariants(specs: seq<FieldSpec>, variants: seq<string>): (r: Result<()>)
    ensures r.Ok? <==> forall i | 0 <= i < |specs| ::
      (forall n | n in specs[i].requiredIn :: n in variants)
      && (forall n | n in specs[i].optionalIn :: n in variants)
      && (forall n | n in specs[i].neverIn :: n in variants)
  {
    if |specs| == 0 then Ok(())
    else
      var s := specs[0];
      assert forall i | 1 <= i < |specs| :: specs[i] == specs[1..][i - 1];
      var req := Unknown(s.requiredIn, variants);
      var opt := Unknown(s.optionalIn, variants);
      var never := Unknown(s.neverIn, variants);
      if req.Some? then Err("unknown variant '" + req.value + "' for required field")
      else if opt.Some? then Err("unknown variant '" + opt.value + "' for optional field")
      else if never.Some? then Err("unknown variant '" + never.value + "' for excluded field")
      else CheckKnownVariants(specs[1..], variants)
  }

  // ---------------------------------------------------------------------------
  // Laws

  /** The precedence the rules promise for one context: an exclusion wins, then
      an optional mention, then a required one; an unmentioned field takes the
      context's fallback. */
  function Fate(c: FluentContext, f: string, fields: seq<string>, groups: Groups, global: Option<DefaultBehavior>): DefaultBehavior {
    if AnyMatch(c.excluded, f, fields, groups) then Exclude
    else if AnyMatch(c.optional, f, fields, groups) then Optional
    else if AnyMatch(c.required, f, fields, groups) then Required
    else Fallback(c, global)
  }

  /** With unique context names, the fate the generator reads off the processed
      field is the precedence of the context's own rules. */
  lemma FatePrecedence(d: FieldDecl, cfg: VariantList, fields: seq<string>, i: nat)
    requires ProcessField(d, cfg, fields).Ok?
    requires UniqueNames(cfg.contexts) && i < |cfg.contexts|
    ensures FinalFate(ProcessField(d, cfg, fields).value, cfg.contexts[i].name)
            == Fate(cfg.contexts[i], d.name, fields, cfg.fieldGroups, cfg.globalDefault)
  {
    LandsAt(cfg.contexts, i, Required, d.name, fields, cfg.fieldGroups, cfg.globalDefault);
    LandsAt(cfg.contexts, i, Optional, d.name, fields, cfg.fieldGroups, cfg.globalDefault);
    LandsAt(cfg.contexts, i, Exclude, d.name, fields, cfg.fieldGroups, cfg.globalDefault);
  }

  /** With unique context names, the type in effect for a context is the
      context's own override, else the declared type. */
  lemma EffectiveTypeOfContext(d: FieldDecl, cfg: VariantList, fields: seq<string>, i: nat)
    requires ProcessField(d, cfg, fields).Ok?
    requires UniqueNames(cfg.contexts) && i < |cfg.contexts|
    ensures EffectiveType(ProcessField(d, cfg, fields).value, cfg.contexts[i].name)
            == ContextOverride(cfg.contexts[i], d.name, fields, cfg.fieldGroups).GetOr(d.ty)
  {
    VariantTypesAt(cfg.contexts, i, d.name, fields, cfg.fieldGroups);
  }

  /** A variant no context names (`#[variants(Draft)]`) gets every field, as an
      optional field of the declared type, whatever the global default says. */
  lemma BareVariantOptional(d: FieldDecl, cfg: VariantList, fields: seq<string>, v: string)
    requires ProcessField(d, cfg, fields).Ok?
    requires v !in Names(cfg.contexts)
    ensures var spec := ProcessField(d, cfg, fields).value;
      VariantField(spec, v, cfg.optionalAttrs, cfg.requiredAttrs)
        == Some(OutField(d.name, Plain(d.attrs) + spec.optionalAttrs + cfg.optionalAttrs, Optionalize(d.ty)))
  {
    var spec := ProcessField(d, cfg, fields).value;
    var ctxs := cfg.contexts;
    forall k ensures v !in Lands(ctxs, k, d.name, fields, cfg.fieldGroups, cfg.globalDefault) {
      LandsMembership(ctxs, k, d.name, fields, cfg.fieldGroups, cfg.globalDefault, v);
    }
    VariantTypesAbsent(ctxs, d.name, fields, cfg.fieldGroups, v);
  }

  /** `when_base` attributes reach the base struct only: the variant fields do
      not depend on them. */
  lemma BaseAttrsStayOnBase(spec: FieldSpec, v: string, optionalAttrs: seq<Attr>, requiredAttrs: seq<Attr>, other: seq<Attr>)
    ensures VariantField(spec.(baseAttrs := other), v, optionalAttrs, requiredAttrs)
            == VariantField(spec, v, optionalAttrs, requiredAttrs)
  {
  }

  /** A field declared `Option<T>` with a non-`Option` override in an optional
      list stays unwrapped: the test looks at the declared type as well as the
      override. */
  lemma OptionFieldKeepsOverride(name: string, inner: Ty, override: Ty, v: string)
    requires !IsOptionType(override)
    ensures var spec := FieldSpec(name, BareOption(inner), [], [], [v], [], true, [], [], [], map[v := override]);
      VariantField(spec, v, [], []) == Some(OutField(name, [], override))
  {
    var spec := FieldSpec(name, BareOption(inner), [], [], [v], [], true, [], [], [], map[v := override]);
    assert EffectiveType(spec, v) == override;
    assert FinalFate(spec, v) == Optional;
    assert VariantFieldType(spec, v, false) == override;
    assert spec.attrs + spec.optionalAttrs + [] == [];
  }

  /** Every context name the classification records is a context's name. */
  lemma {:induction false} LandsAreContexts(ctxs: seq<FluentContext>, k: DefaultBehavior, f: string, fields: seq<string>,
                                            groups: Groups, global: Option<DefaultBehavior>, n: string)
    requires n in Lands(ctxs, k, f, fields, groups, global)
    ensures n in Names(ctxs)
  {
    LandsMembership(ctxs, k, f, fields, groups, global, n);
    var i :| 0 <= i < |ctxs| && ctxs[i].name == n && LandsIn(ctxs[i], k, f, fields, groups, global);
    assert Names(ctxs)[i] == n;
  }

  /** When every context is also a variant, the unknown-variant check passes. */
  lemma KnownVariantsPass(decls: seq<FieldDecl>, specs: seq<FieldSpec>, cfg: VariantList, fields: seq<string>)
    requires |specs| == |decls|
    requires forall j | 0 <= j < |decls| :: ProcessField(decls[j], cfg, fields) == Ok(specs[j])
    requires forall n | n in Names(cfg.contexts) :: n in cfg.variants
    ensures CheckKnownVariants(specs, cfg.variants).Ok?
  {
    forall j, k, n | 0 <= j < |decls| && n in Lands(cfg.contexts, k, decls[j].name, fields, cfg.fieldGroups, cfg.globalDefault)
      ensures n in cfg.variants
    {
      LandsAreContexts(cfg.contexts, k, decls[j].name, fields, cfg.fieldGroups, cfg.globalDefault, n);
    }
  }
}

=== FILE: rules.dfy ===
/** The data model of the rule engine: field references, fluent contexts, the
    parsed attribute arguments, and the membership law `matches_field` that decides
    which declared fields a reference names (src/lib.rs:48-148). */
module Rules {
  import opened Wrappers
  import opened Syntax

  /** A reference inside a group definition: a field name, or `all_fields()` minus
      some exceptions. */
  datatype GroupFieldRef = GroupField(name: string) | GroupAllFields(except: seq<string>)

  /** A reference inside a context's `requires`/`optional`/`excludes` list. */
  datatype FieldRef =
    | Field(name: string)
    | FieldWithType(field: string, variantType: Ty)
    | AllFields(except: seq<string>)
    | GroupWithExcept(group: string, except: seq<string>)

  /** The fate of a field in a context. The same three values name a `default(..)`
      directive and a final classification. */
  datatype DefaultBehavior = Required | Optional | Exclude

  /** `Name: requires(..).optional(..).excludes(..).default(..)`. The source also keeps
      the span of the expression, which only places diagnostics. */
  datatype FluentContext = FluentContext(
    name: string,
    required: seq<FieldRef>,
    optional: seq<FieldRef>,
    excluded: seq<FieldRef>,
    defaultBehavior: Option<DefaultBehavior>)

  /** Expanded field groups: group name to the concrete field names it stands for. */
  type Groups = map<string, seq<string>>

  /** The parsed macro arguments (`VariantList`). */
  datatype VariantList = VariantList(
    variants: seq<string>,
    prefix: Option<string>,
    suffix: Option<string>,
    optionalAttrs: seq<Attr>,
    requiredAttrs: seq<Attr>,
    contexts: seq<FluentContext>,
    globalDefault: Option<DefaultBehavior>,
    fieldGroups: Groups,
    groupRefs: map<string, seq<GroupFieldRef>>,
    buildBase: bool,
    optionalBase: bool)

  /** The list of a context that collects references of the given kind. */
  function RefsOf(c: FluentContext, k: DefaultBehavior): seq<FieldRef> {
    match k
    case Required => c.required
    case Optional => c.optional
    case Exclude => c.excluded
  }

  /** `FieldRef::matches_field`. */
  predicate MatchesField(r: FieldRef, f: string, fields: seq<string>, groups: Groups) {
    match r
    case Field(name) => name == f
    case FieldWithType(field, _) => field == f
    case AllFields(except) => f in fields && f !in except
    case GroupWithExcept(g, except) => g in groups && f in groups[g] && f !in except
  }

  /** The set of names a reference stands for, written with set operations: a
      literal stands for itself, a wildcard for the declared fields minus its
      exceptions, a group for the group's fields minus its exceptions, and a
      reference to an undefined group for nothing. */
  function Denotation(r: FieldRef, fields: seq<string>, groups: Groups): (d: set<string>)
    ensures forall f :: f in d <==> MatchesField(r, f, fields, groups)
  {
    match r
    case Field(name) => {name}
    case FieldWithType(field, _) => {field}
    case AllFields(except) => (set x | x in fields) - (set x | x in except)
    case GroupWithExcept(g, except) =>
      if g in groups then (set x | x in groups[g]) - (set x | x in except) else {}
  }

  /** `FieldRef::get_variant_type`. */
  function VariantType(r: FieldRef): (t: Option<Ty>)
    ensures t.Some? <==> r.FieldWithType?
  {
    match r
    case FieldWithType(_, ty) => Some(ty)
    case _ => None
  }

  /** Whether some reference of the list matches the field. */
  predicate AnyMatch(refs: seq<FieldRef>, f: string, fields: seq<string>, groups: Groups)
  {
    exists i | 0 <= i < |refs| :: MatchesField(refs[i], f, fields, groups)
  }

  /** The first reference of the list that matches the field: the loops of
      `process_field` stop at it. */
  function FirstMatch(refs: seq<FieldRef>, f: string, fields: seq<string>, groups: Groups): (r: Option<FieldRef>)
    ensures r.Some? <==> AnyMatch(refs, f, fields, groups)
    ensures r.Some? ==> exists i | 0 <= i < |refs| :: refs[i] == r.value
                          && MatchesField(refs[i], f, fields, groups)
                          && forall j | 0 <= j < i :: !MatchesField(refs[j], f, fields, groups)
  {
    if |refs| == 0 then None
    else if MatchesField(refs[0], f, fields, groups) then Some(refs[0])
    else
      var r := FirstMatch(refs[1..], f, fields, groups);
      assert forall i | 0 < i < |refs| :: refs[i] == refs[1..][i - 1];
      r
  }

  /** The number of references of the list that match the field. */
  function CountMatches(refs: seq<FieldRef>, f: string, fields: seq<string>, groups: Groups): (n: nat)
    ensures n <= |refs|
    ensures n == 0 <==> !AnyMatch(refs, f, fields, groups)
  {
    if |refs| == 0 then 0
    else
      var rest := CountMatches(refs[1..], f, fields, groups);
      assert AnyMatch(refs[1..], f, fields, groups) ==> AnyMatch(refs, f, fields, groups) by {
        if AnyMatch(refs[1..], f, fields, groups) {
          var i :| 0 <= i < |refs[1..]| && MatchesField(refs[1..][i], f, fields, groups);
          assert refs[i + 1] == refs[1..][i];
        }
      }
      assert AnyMatch(refs, f, fields, groups) && !MatchesField(refs[0], f, fields, groups)
        ==> AnyMatch(refs[1..], f, fields, groups) by {
        if AnyMatch(refs, f, fields, groups) && !MatchesField(refs[0], f, fields, groups) {
          var i :| 0 <= i < |refs| && MatchesField(refs[i], f, fields, groups);
          assert refs[1..][i - 1] == refs[i];
        }
      }
      (if MatchesField(refs[0], f, fields, groups) then 1 else 0) + rest
  }

  /** Counting matches distributes over concatenation of reference lists. */
  lemma {:induction false} CountMatchesAppend(a: seq<FieldRef>, b: seq<FieldRef>, f: string, fields: seq<string>, groups: Groups)
    ensures CountMatches(a + b, f, fields, groups) == CountMatches(a, f, fields, groups) + CountMatches(b, f, fields, groups)
  {
    if |a| == 0 {
      assert a + b == b;
    } else {
      assert (a + b)[1..] == a[1..] + b;
      CountMatchesAppend(a[1..], b, f, fields, groups);
    }
  }

  /** Whether the field is named by any of the context's three lists. */
  predicate Mentioned(c: FluentContext, f: string, fields: seq<string>, groups: Groups) {
    AnyMatch(c.required, f, fields, groups)
    || AnyMatch(c.optional, f, fields, groups)
    || AnyMatch(c.excluded, f, fields, groups)
  }

  /** The fate of an unmentioned field: the context's default, else the global
      default, else Optional (src/lib.rs:714-716). */
  function Fallback(c: FluentContext, global: Option<DefaultBehavior>): DefaultBehavior {
    if c.defaultBehavior.Some? then c.defaultBehavior.value
    else global.GetOr(Optional)
  }

  /** Whether no two contexts share a name. */
  predicate UniqueNames(ctxs: seq<FluentContext>) {
    forall i, j | 0 <= i < j < |ctxs| :: ctxs[i].name != ctxs[j].name
  }

  /** The names of the contexts, in order. */
  function Names(ctxs: seq<FluentContext>): (ns: seq<string>)
    ensures |ns| == |ctxs|
    ensures forall i | 0 <= i < |ctxs| :: ns[i] == ctxs[i].name
  {
    if |ctxs| == 0 then [] else [ctxs[0].name] + Names(ctxs[1..])
  }
}

=== FILE: seqs.dfy ===
/** Facts about sequences that several modules of the model rely on. */
module Seqs {

  /** Concatenation is associative; the proofs that split a sequence into its
      head and tail use it to regroup the pieces. */
  lemma AppendAssoc<T>(a: seq<T>, b: seq<T>, c: seq<T>)
    ensures (a + b) + c == a + (b + c)
  {
  }
}

=== FILE: session.dfy ===
/** The macro from arguments to output (`variants`, src/lib.rs:792-812, and
    `expand_context_variants`, src/lib.rs:437-629): parse the arguments, expand
    groups against the struct's fields, validate, classify every field, check
    the variant names, and generate. */
module Session {
  import opened Wrappers
  import opened Rules
  import opened Parser
  import opened Expander
  import opened Classifier
  import opened Validator
  import opened Resolver
  import ParserLaws

  /** The fields of the annotated item: named, or tuple/unit fields. */
  datatype Body = NamedFields(fields: seq<FieldDecl>) | UnnamedFields

  /** The annotated item: a struct, or an enum or union. */
  datatype Item = StructItem(name: string, attrs: seq<FieldAttr>, body: Body) | OtherItem(name: string)

  /** What the macro produces. `Failed` carries the error that stopped it and
      the diagnostics emitted before; `Rejected` means validation emitted
      diagnostics, which fail the compilation; `Generated` is the output. */
  datatype Outcome =
    | Failed(error: string, diagnostics: set<Diagnostic>)
    | Rejected(diagnostics: set<Diagnostic>)
    | Generated(output: Expansion)

  /** The declared field names, in order. */
  function FieldNames(decls: seq<FieldDecl>): (r: seq<string>)
    ensures |r| == |decls| && forall j | 0 <= j < |decls| :: r[j] == decls[j].name
  {
    seq(|decls|, j requires 0 <= j < |decls| => decls[j].name)
  }

  /** `process_field` over every field, stopping at the first error. */
  function ProcessFields(decls: seq<FieldDecl>, cfg: VariantList, fields: seq<string>): (r: Result<seq<FieldSpec>>)
    ensures r.Ok? <==> forall j | 0 <= j < |decls| :: ProcessField(decls[j], cfg, fields).Ok?
    ensures r.Ok? ==> |r.value| == |decls| && forall j | 0 <= j < |decls| :: ProcessField(decls[j], cfg, fields) == Ok(r.value[j])
  {
    if |decls| == 0 then Ok([])
    else
      var head := ProcessField(decls[0], cfg, fields);
      var rest := ProcessFields(decls[1..], cfg, fields);
      assert forall j | 1 <= j < |decls| :: decls[j] == decls[1..][j - 1];
      if head.Err? then Err(head.error)
      else if rest.Err? then Err(rest.error)
      else Ok([head.value] + rest.value)
  }

  /** `expand_context_variants`. */
  function ExpandContextVariants(cfg: VariantList, item: Item): (o: Outcome)
    ensures item.OtherItem? ==> o == Failed("context_variants can only be applied to structs", {})
    ensures item.StructItem? && item.body.UnnamedFields? ==> o == Failed("context_variants only supports structs with named fields", {})
    ensures o.Generated? ==>
      item.StructItem? && item.body.NamedFields? && ExpandGroupFieldReferences(cfg, FieldNames(item.body.fields)).Ok?
  {
    match item
    case OtherItem(_) => Failed("context_variants can only be applied to structs", {})
    case StructItem(name, attrs, body) =>
      match body
      case UnnamedFields => Failed("context_variants only supports structs with named fields", {})
      case NamedFields(decls) =>
        var fields := FieldNames(decls);
        var expanded := ExpandGroupFieldReferences(cfg, fields);
        if expanded.Err? then Failed(expanded.error, {})
        else
          var c := expanded.value;
          var diagnostics := Diagnostics(c.contexts, fields, c.fieldGroups, c.globalDefault);
          var specs := ProcessFields(decls, c, fields);
          if specs.Err? then Failed(specs.error, diagnostics)
          else
            var check := CheckKnownVariants(specs.value, c.variants);
            if check.Err? then Failed(check.error, diagnostics)
            else if diagnostics != {} then Rejected(diagnostics)
            else Generated(Generate(name, attrs, specs.value, c))
  }

  /** The attribute macro `variants`. */
  function Variants(args: seq<MixedArg>, item: Item): (o: Outcome)
    ensures ParseMixedArgs(args).Err? ==> o == Failed(ParseMixedArgs(args).error, {})
    ensures ParseMixedArgs(args).Ok? ==> o == ExpandContextVariants(ParseMixedArgs(args).value, item)
  {
    var parsed := ParseMixedArgs(args);
    if parsed.Err? then Failed(parsed.error, {}) else ExpandContextVariants(parsed.value, item)
  }

  // ---------------------------------------------------------------------------
  // Laws

  /** Group expansion keeps the context names, index by index. */
  lemma ExpansionKeepsNames(cfg: VariantList, fields: seq<string>)
    requires ExpandGroupFieldReferences(cfg, fields).Ok?
    ensures var c := ExpandGroupFieldReferences(cfg, fields).value;
      Names(c.contexts) == Names(cfg.contexts) && c.variants == cfg.variants && c.globalDefault == cfg.globalDefault
  {
    var c := ExpandGroupFieldReferences(cfg, fields).value;
    assert forall i | 0 <= i < |cfg.contexts| :: Names(c.contexts)[i] == Names(cfg.contexts)[i];
  }

  /** When every context is also a variant, the unknown-variant check never
      stops the macro: it produces output or validation diagnostics, or stops
      at group expansion or at a field attribute. */
  lemma UnknownVariantNeverFails(cfg: VariantList, name: string, attrs: seq<FieldAttr>, decls: seq<FieldDecl>)
    requires forall i | 0 <= i < |cfg.contexts| :: cfg.contexts[i].name in cfg.variants
    ensures var o := ExpandContextVariants(cfg, StructItem(name, attrs, NamedFields(decls)));
      var fields := FieldNames(decls);
      o.Failed? ==> ExpandGroupFieldReferences(cfg, fields).Err?
                    || ProcessFields(decls, ExpandGroupFieldReferences(cfg, fields).value, fields).Err?
  {
    var fields := FieldNames(decls);
    var expanded := ExpandGroupFieldReferences(cfg, fields);
    if expanded.Ok? {
      var c := expanded.value;
      var specs := ProcessFields(decls, c, fields);
      if specs.Ok? {
        ExpansionKeepsNames(cfg, fields);
        forall n | n in Names(c.contexts) ensures n in c.variants {
          var i :| 0 <= i < |c.contexts| && Names(c.contexts)[i] == n;
          assert Names(cfg.contexts)[i] == n;
        }
        KnownVariantsPass(decls, specs.value, c, fields);
      }
    }
  }

  /** The arguments the parser accepts always meet the condition above. */
  lemma ParsedContextsAreVariants(args: seq<MixedArg>)
    requires ParseMixedArgs(args).Ok?
    ensures var cfg := ParseMixedArgs(args).value;
      forall i | 0 <= i < |cfg.contexts| :: cfg.contexts[i].name in cfg.variants
  {
    ParserLaws.ContextsAreVariants(args);
  }

  /** In a generated expansion, a field declared once is, in every context,
      either named by exactly one reference, whose list decides its fate, or by
      none, and then a default decides it. */
  lemma GeneratedFieldFate(cfg: VariantList, name: string, attrs: seq<FieldAttr>, decls: seq<FieldDecl>, i: nat, j: nat)
    requires ExpandContextVariants(cfg, StructItem(name, attrs, NamedFields(decls))).Generated?
    requires UniqueNames(cfg.contexts)
    requires j < |decls| && Occ(decls[j].name, FieldNames(decls)) == 1
    requires i < |cfg.contexts|
    ensures var fields := FieldNames(decls);
      var c := ExpandGroupFieldReferences(cfg, fields).value;
      var ctx := c.contexts[i];
      var f := decls[j].name;
      var nr := CountMatches(ctx.required, f, fields, c.fieldGroups);
      var no := CountMatches(ctx.optional, f, fields, c.fieldGroups);
      var ne := CountMatches(ctx.excluded, f, fields, c.fieldGroups);
      ProcessField(decls[j], c, fields).Ok?
      && nr + no + ne <= 1
      && (nr + no + ne == 0 ==> HasDefault(ctx, c.globalDefault)
                                && FinalFate(ProcessField(decls[j], c, fields).value, ctx.name) == Fallback(ctx, c.globalDefault))
      && (nr == 1 ==> FinalFate(ProcessField(decls[j], c, fields).value, ctx.name) == Required)
      && (no == 1 ==> FinalFate(ProcessField(decls[j], c, fields).value, ctx.name) == Optional)
      && (ne == 1 ==> FinalFate(ProcessField(decls[j], c, fields).value, ctx.name) == Exclude)
  {
    var fields := FieldNames(decls);
    var c := ExpandGroupFieldReferences(cfg, fields).value;
    GeneratedIsClean(cfg, name, attrs, decls, i);
    ExpandedNamesUnique(cfg, fields);
    CleanContext(c.contexts[i], fields, c.fieldGroups, c.globalDefault, decls[j].name);
    FatePrecedence(decls[j], c, fields, i);
  }

  /** Generated output means every field was processed and the context raised
      no diagnostic. */
  lemma GeneratedIsClean(cfg: VariantList, name: string, attrs: seq<FieldAttr>, decls: seq<FieldDecl>, i: nat)
    requires ExpandContextVariants(cfg, StructItem(name, attrs, NamedFields(decls))).Generated?
    requires i < |cfg.contexts|
    ensures var fields := FieldNames(decls);
      var c := ExpandGroupFieldReferences(cfg, fields).value;
      && ProcessFields(decls, c, fields).Ok?
      && i < |c.contexts|
      && ContextDiagnostics(c.contexts[i], fields, c.fieldGroups, c.globalDefault) == {}
  {
    var fields := FieldNames(decls);
    var c := ExpandGroupFieldReferences(cfg, fields).value;
    assert Diagnostics(c.contexts, fields, c.fieldGroups, c.globalDefault) == {};
    forall d | d in ContextDiagnostics(c.contexts[i], fields, c.fieldGroups, c.globalDefault) ensures false {
      DiagnosticsMembership(c.contexts, fields, c.fieldGroups, c.globalDefault, d);
    }
  }

  /** Group expansion keeps distinct context names distinct. */
  lemma ExpandedNamesUnique(cfg: VariantList, fields: seq<string>)
    requires ExpandGroupFieldReferences(cfg, fields).Ok?
    requires UniqueNames(cfg.contexts)
    ensures UniqueNames(ExpandGroupFieldReferences(cfg, fields).value.contexts)
  {
    var c := ExpandGroupFieldReferences(cfg, fields).value;
    ExpansionKeepsNames(cfg, fields);
    forall a, b | 0 <= a < b < |c.contexts| ensures c.contexts[a].name != c.contexts[b].name {
      assert Names(c.contexts)[a] == Names(cfg.contexts)[a];
      assert Names(c.contexts)[b] == Names(cfg.contexts)[b];
    }
  }
}

=== FILE: syntax.dfy ===
/** The small part of Rust's syntax tree that the rule language is written in:
    expressions as `syn` hands them to the macro, Rust types, and attributes.
    The rule source is taken as already parsed into these trees; nothing here
    tokenizes Rust. */
module Syntax {
  import opened Wrappers

  /** One segment of a type path: its identifier and its generic arguments. */
  datatype Segment = Segment(ident: string, args: seq<Ty>)

  /** A Rust type. Only path types (`u64`, `Option<String>`, `std::time::SystemTime`)
      are inspected; every other kind of type is an opaque token. */
  datatype Ty = PathTy(segments: seq<Segment>) | OtherTy(token: string)

  /** An attribute as an uninterpreted payload: the engine only moves attributes
      around, it never looks inside them. */
  datatype Attr = Attr(token: string)

  datatype Literal = Str(text: string) | Bool(flag: bool) | OtherLit(token: string)

  /** The expression forms the rule source can contain. A `Path` is a list of
      `::`-separated segments; `AttrArray` is an array literal whose elements have
      already been read as attributes; `OtherExpr` stands for every other kind of
      Rust expression, all of which the parser rejects. */
  datatype Expr =
    | Path(segments: seq<string>)
    | Call(func: Expr, args: seq<Expr>)
    | MethodCall(receiver: Expr, name: string, args: seq<Expr>)
    | Cast(operand: Expr, ty: Ty)
    | Lit(lit: Literal)
    | Tuple(elems: seq<Expr>)
    | AttrArray(attrs: seq<Attr>)
    | OtherExpr(token: string)

  /** `path.get_ident()`: the identifier of a path made of exactly one segment. */
  function GetIdent(e: Expr): (r: Option<string>)
    ensures r.Some? <==> e.Path? && |e.segments| == 1
    ensures r.Some? ==> e == Path([r.value])
  {
    if e.Path? && |e.segments| == 1 then Some(e.segments[0]) else None
  }

  /** The expression `x` for identifier `x`. */
  function Ident(x: string): Expr {
    Path([x])
  }

  /** `is_option_type`: a path type whose last segment is named `Option`. */
  predicate IsOptionType(t: Ty) {
    t.PathTy? && |t.segments| > 0 && t.segments[|t.segments| - 1].ident == "Option"
  }

  /** The type `::core::option::Option<t>` that an optional variant field is given. */
  function WrapOption(t: Ty): Ty {
    PathTy([Segment("core", []), Segment("option", []), Segment("Option", [t])])
  }

  /** The type `Option<t>` that an `optional_base` base-struct field is given. */
  function BareOption(t: Ty): Ty {
    PathTy([Segment("Option", [t])])
  }

  /** Makes a type optional unless it already is one. */
  function Optionalize(t: Ty): (r: Ty)
    ensures IsOptionType(r)
    ensures IsOptionType(t) ==> r == t
    ensures !IsOptionType(t) ==> r == WrapOption(t) && r != t
  {
    if IsOptionType(t) then t else WrapOption(t)
  }

  /** Making a type optional twice is the same as making it optional once. */
  lemma OptionalizeIdempotent(t: Ty)
    ensures Optionalize(Optionalize(t)) == Optionalize(t)
  {
  }
}

=== FILE: validator.dfy ===
/** `validate_fluent_contexts` (src/lib.rs:1267-1337): per context, a field that
    the context's lists name more than once is a conflict, and when neither the
    context nor the arguments set a default, every field the lists do not name
    is reported missing. Diagnostics are collected, not returned one by one, so
    they are modelled as a set: the source emits conflicts in hash-map order. */
module Validator {
  import opened Wrappers
  import opened Rules
  import opened Seqs

  /** A diagnostic of one context: a field named more than once, with the list
      kind of every mention; or the fields left unnamed. */
  datatype Diagnostic =
    | Conflict(context: string, field: string, mentions: seq<string>)
    | Missing(context: string, fields: seq<string>)

  // ---------------------------------------------------------------------------
  // Functional specification

  /** How often a name occurs among the declared fields. */
  function Occ(f: string, fields: seq<string>): nat {
    multiset(fields)[f]
  }

  /** `n` copies of a tag. */
  function Repeat(tag: string, n: nat): (r: seq<string>)
    ensures |r| == n && forall i | 0 <= i < n :: r[i] == tag
  {
    if n == 0 then [] else Repeat(tag, n - 1) + [tag]
  }

  /** How many times a field has been mentioned in each list of a context.
      The source keeps the list of labels (`["required", "optional"]`); since
      all required mentions are recorded before the optional ones and those
      before the excluded ones, the three counts determine that list. */
  datatype Tally = Tally(required: nat, optional: nat, excluded: nat)

  const NoMentions := Tally(0, 0, 0)

  function Total(t: Tally): nat {
    t.required + t.optional + t.excluded
  }

  /** The labels of a tally, in the order the source records them. */
  function Render(t: Tally): (r: seq<string>)
    ensures |r| == Total(t)
  {
    Repeat("required", t.required) + Repeat("optional", t.optional) + Repeat("excluded", t.excluded)
  }

  /** The labels come in the order the source's three loops record them: every
      `required` mention, then every `optional` one, then every `excluded` one. */
  lemma RenderOrder(t: Tally)
    ensures forall i | 0 <= i < Total(t) ::
      Render(t)[i] == if i < t.required then "required"
                      else if i < t.required + t.optional then "optional"
                      else "excluded"
  {
  }

  /** `n` more mentions in the list of kind `k`. */
  function Bump(t: Tally, k: DefaultBehavior, n: nat): Tally {
    match k
    case Required => t.(required := t.required + n)
    case Optional => t.(optional := t.optional + n)
    case Exclude => t.(excluded := t.excluded + n)
  }

  /** The mentions a field collects from a list: for every reference of the
      list that matches it, one per declared field of that name. */
  function Mentions(refs: seq<FieldRef>, f: string, fields: seq<string>, groups: Groups): nat {
    if |refs| == 0 then 0
    else (if MatchesField(refs[0], f, fields, groups) then Occ(f, fields) else 0) + Mentions(refs[1..], f, fields, groups)
  }

  /** The mentions a field collects in a context, list by list. */
  function TallyOf(c: FluentContext, f: string, fields: seq<string>, groups: Groups): Tally {
    Tally(Mentions(c.required, f, fields, groups), Mentions(c.optional, f, fields, groups),
          Mentions(c.excluded, f, fields, groups))
  }

  /** A list's mentions of a field are its matching references times the
      field's declarations. */
  lemma {:induction false} MentionsProduct(refs: seq<FieldRef>, f: string, fields: seq<string>, groups: Groups)
    ensures Mentions(refs, f, fields, groups) == CountMatches(refs, f, fields, groups) * Occ(f, fields)
  {
    if |refs| > 0 {
      MentionsProduct(refs[1..], f, fields, groups);
      ProductStep(CountMatches(refs[1..], f, fields, groups), Occ(f, fields));
    }
  }

  lemma {:induction false} MentionsAppend(a: seq<FieldRef>, b: seq<FieldRef>, f: string, fields: seq<string>, groups: Groups)
    ensures Mentions(a + b, f, fields, groups) == Mentions(a, f, fields, groups) + Mentions(b, f, fields, groups)
  {
    if |a| == 0 {
      assert a + b == b;
    } else {
      assert (a + b)[1..] == a[1..] + b;
      MentionsAppend(a[1..], b, f, fields, groups);
    }
  }

  /** A declared field is mentioned by a list exactly when some reference of the
      list matches it. */
  lemma MentionsPositive(refs: seq<FieldRef>, f: string, fields: seq<string>, groups: Groups)
    requires f in fields
    ensures Mentions(refs, f, fields, groups) > 0 <==> AnyMatch(refs, f, fields, groups)
  {
    MentionsProduct(refs, f, fields, groups);
    ProductZero(CountMatches(refs, f, fields, groups), Occ(f, fields));
  }

  /** The names of `names` that no list of the context mentions, in order. */
  function Unmentioned(c: FluentContext, names: seq<string>, fields: seq<string>, groups: Groups): (r: seq<string>)
    ensures forall x :: x in r <==> x in names && !Mentioned(c, x, fields, groups)
    ensures |r| <= |names|
  {
    if |names| == 0 then []
    else UnmentionedHead(c, names[0], fields, groups) + Unmentioned(c, names[1..], fields, groups)
  }

  lemma {:induction false} UnmentionedAppend(c: FluentContext, a: seq<string>, b: seq<string>, fields: seq<string>, groups: Groups)
    ensures Unmentioned(c, a + b, fields, groups) == Unmentioned(c, a, fields, groups) + Unmentioned(c, b, fields, groups)
  {
    if |a| == 0 {
      assert a + b == b;
    } else {
      var h := UnmentionedHead(c, a[0], fields, groups);
      assert Unmentioned(c, a + b, fields, groups) == h + Unmentioned(c, a[1..] + b, fields, groups) by {
        assert (a + b)[1..] == a[1..] + b;
      }
      UnmentionedAppend(c, a[1..], b, fields, groups);
      AppendAssoc(h, Unmentioned(c, a[1..], fields, groups), Unmentioned(c, b, fields, groups));
    }
  }

  /** What the first name contributes to the unmentioned list. */
  function UnmentionedHead(c: FluentContext, x: string, fields: seq<string>, groups: Groups): seq<string> {
    if Mentioned(c, x, fields, groups) then [] else [x]
  }

  lemma UnmentionedSingle(c: FluentContext, x: string, fields: seq<string>, groups: Groups)
    ensures Unmentioned(c, [x], fields, groups) == UnmentionedHead(c, x, fields, groups)
  {
    assert [x][1..] == [];
  }

  /** Whether the context or the arguments give unmentioned fields a fate. */
  predicate HasDefault(c: FluentContext, global: Option<DefaultBehavior>) {
    c.defaultBehavior.Some? || global.Some?
  }

  /** The diagnostics of one context. */
  function ContextDiagnostics(c: FluentContext, fields: seq<string>, groups: Groups, global: Option<DefaultBehavior>): set<Diagnostic> {
    var missing := Unmentioned(c, fields, fields, groups);
    (set f | f in fields && Total(TallyOf(c, f, fields, groups)) > 1 :: Conflict(c.name, f, Render(TallyOf(c, f, fields, groups))))
      + (if !HasDefault(c, global) && |missing| > 0 then {Missing(c.name, missing)} else {})
  }

  /** The diagnostics of all contexts. */
  function Diagnostics(ctxs: seq<FluentContext>, fields: seq<string>, groups: Groups, global: Option<DefaultBehavior>): set<Diagnostic> {
    if |ctxs| == 0 then {}
    else ContextDiagnostics(ctxs[0], fields, groups, global) + Diagnostics(ctxs[1..], fields, groups, global)
  }

  // ---------------------------------------------------------------------------
  // Messages

  /** `names.join(sep)`. */
  function Join(names: seq<string>, sep: string): string {
    if |names| == 0 then ""
    else if |names| == 1 then names[0]
    else names[0] + sep + Join(names[1..], sep)
  }

  /** The help text of a missing-fields diagnostic. */
  function Suggestion(names: seq<string>): string {
    var list := Join(names, ",");
    "add .requires(" + list + "), .optional(" + list + "), .excludes(" + list + "), or .default(optional/required/exclude)"
  }

  /** The message a diagnostic is reported with. */
  function Message(d: Diagnostic): string {
    match d
    case Conflict(_, f, mentions) => "field '" + f + "' mentioned multiple times: " + Join(mentions, ", ")
    case Missing(_, names) => "missing fields: " + Join(names, ", ")
  }

  /** The source builds the one-field suggestion separately, but it comes out
      the same as the general one: the field named once in each slot. */
  lemma SuggestionSingleField(x: string)
    ensures Suggestion([x]) == "add .requires(" + x + "), .optional(" + x + "), .excludes(" + x
                               + "), or .default(optional/required/exclude)"
  {
  }

  // ---------------------------------------------------------------------------
  // Laws of the specification

  /** For a field declared once, the number of mentions is the number of
      references, over the three lists, that match it. */
  lemma MentionCount(c: FluentContext, f: string, fields: seq<string>, groups: Groups)
    requires Occ(f, fields) == 1
    ensures Total(TallyOf(c, f, fields, groups)) == CountMatches(c.required, f, fields, groups)
      + CountMatches(c.optional, f, fields, groups) + CountMatches(c.excluded, f, fields, groups)
  {
    MentionsProduct(c.required, f, fields, groups);
    MentionsProduct(c.optional, f, fields, groups);
    MentionsProduct(c.excluded, f, fields, groups);
  }

  /** A declared field has no mentions exactly when no list of the context
      names it. */
  lemma NoMentionsIffUnmentioned(c: FluentContext, f: string, fields: seq<string>, groups: Groups)
    requires f in fields
    ensures Total(TallyOf(c, f, fields, groups)) == 0 <==> !Mentioned(c, f, fields, groups)
  {
    MentionsPositive(c.required, f, fields, groups);
    MentionsPositive(c.optional, f, fields, groups);
    MentionsPositive(c.excluded, f, fields, groups);
  }

  /** A field declared once conflicts exactly when more than one reference of
      the context's lists matches it, whether in different lists or twice in
      the same one. */
  lemma ConflictIff(c: FluentContext, f: string, fields: seq<string>, groups: Groups, global: Option<DefaultBehavior>)
    requires Occ(f, fields) == 1
    ensures (exists ms :: Conflict(c.name, f, ms) in ContextDiagnostics(c, fields, groups, global))
        <==> CountMatches(c.required, f, fields, groups) + CountMatches(c.optional, f, fields, groups)
             + CountMatches(c.excluded, f, fields, groups) > 1
  {
    MentionCount(c, f, fields, groups);
    assert f in fields;
    var t := TallyOf(c, f, fields, groups);
    var ds := ContextDiagnostics(c, fields, groups, global);
    if Total(t) > 1 {
      assert Conflict(c.name, f, Render(t)) in ds;
    }
    if exists ms :: Conflict(c.name, f, ms) in ds {
      var ms :| Conflict(c.name, f, ms) in ds;
      var g :| g in fields && Total(TallyOf(c, g, fields, groups)) > 1
        && Conflict(c.name, g, Render(TallyOf(c, g, fields, groups))) == Conflict(c.name, f, ms);
      assert g == f;
    }
  }

  /** Without any default, the context reports exactly the declared fields its
      lists leave unnamed, in declaration order; with a default it reports no
      missing fields at all. */
  lemma CoverageLaw(c: FluentContext, fields: seq<string>, groups: Groups, global: Option<DefaultBehavior>, names: seq<string>)
    ensures Missing(c.name, names) in ContextDiagnostics(c, fields, groups, global)
        <==> !HasDefault(c, global) && names == Unmentioned(c, fields, fields, groups) && |names| > 0
  {
  }

  /** Naming a field twice in the same list is a conflict even when both
      mentions agree. */
  lemma DuplicateInOneList(name: string)
    ensures var c := FluentContext(name, [Field("id"), Field("id")], [], [], Some(Optional));
      ContextDiagnostics(c, ["id"], map[], None) == {Conflict(name, "id", ["required", "required"])}
  {
    var c := FluentContext(name, [Field("id"), Field("id")], [], [], Some(Optional));
    TwiceRequired(c);
    RenderOrder(Tally(2, 0, 0));
    assert Render(Tally(2, 0, 0)) == ["required", "required"];
    OneFieldConflict(c, "id", map[], None);
  }

  /** With a default and a single declared field mentioned more than once, the
      context's only diagnostic is that field's conflict. */
  lemma OneFieldConflict(c: FluentContext, f: string, groups: Groups, global: Option<DefaultBehavior>)
    requires HasDefault(c, global) && Total(TallyOf(c, f, [f], groups)) > 1
    ensures ContextDiagnostics(c, [f], groups, global) == {Conflict(c.name, f, Render(TallyOf(c, f, [f], groups)))}
  {
    var ds := ContextDiagnostics(c, [f], groups, global);
    assert Conflict(c.name, f, Render(TallyOf(c, f, [f], groups))) in ds;
  }

  /** The counts behind the example above. */
  lemma TwiceRequired(c: FluentContext)
    requires c.required == [Field("id"), Field("id")] && c.optional == [] && c.excluded == []
    ensures TallyOf(c, "id", ["id"], map[]) == Tally(2, 0, 0)
  {
    assert Occ("id", ["id"]) == 1 by {
      assert multiset(["id"])["id"] == 1;
    }
    assert MatchesField(Field("id"), "id", ["id"], map[]);
    assert c.required[1..] == [Field("id")];
    assert [Field("id")][1..] == [];
    assert Mentions([Field("id")], "id", ["id"], map[]) == 1;
    assert Mentions(c.required, "id", ["id"], map[]) == 2;
  }

  /** A context with no diagnostics gives every field declared once exactly one
      explicit mention, or none and a default to fall back on. */
  lemma CleanContext(c: FluentContext, fields: seq<string>, groups: Groups, global: Option<DefaultBehavior>, f: string)
    requires ContextDiagnostics(c, fields, groups, global) == {}
    requires Occ(f, fields) == 1
    ensures CountMatches(c.required, f, fields, groups) + CountMatches(c.optional, f, fields, groups)
            + CountMatches(c.excluded, f, fields, groups) <= 1
    ensures !Mentioned(c, f, fields, groups) ==> HasDefault(c, global)
  {
    ConflictIff(c, f, fields, groups, global);
  }

  // ---------------------------------------------------------------------------
  // The validator as the source runs it

  /** The entry a mention map holds for a field, or none. */
  function Get(m: map<string, Tally>, f: string): Tally {
    if f in m then m[f] else NoMentions
  }

  lemma RepeatAdd(tag: string, a: nat, b: nat)
    ensures Repeat(tag, a) + Repeat(tag, b) == Repeat(tag, a + b)
  {
    assert |Repeat(tag, a) + Repeat(tag, b)| == a + b;
  }

  lemma ProductZero(a: nat, b: nat)
    requires b > 0
    ensures a * b == 0 <==> a == 0
  {
    if a > 0 {
      assert a * b == (a - 1) * b + b;
    }
  }

  lemma ProductStep(a: nat, b: nat)
    ensures (a + 1) * b == a * b + b
  {
  }

  /** The inner mention loop of the source: one reference, whose matches are
      `hits`, against every declared field. */
  method AddRefMentions(m: map<string, Tally>, hits: set<string>, k: DefaultBehavior, fields: seq<string>)
    returns (m': map<string, Tally>)
    ensures forall f :: f in m' <==> f in m || (f in fields && f in hits)
    ensures forall f | f in m' && f !in hits :: m'[f] == m[f]
    ensures forall f | f in m' && f in hits :: m'[f] == Bump(Get(m, f), k, Occ(f, fields))
  {
    m' := m;
    var j := 0;
    while j < |fields|
      invariant 0 <= j <= |fields|
      invariant forall f :: f in m' <==> f in m || (f in fields[..j] && f in hits)
      invariant forall f | f in m' && f !in hits :: m'[f] == m[f]
      invariant forall f | f in m' && f in hits :: m'[f] == Bump(Get(m, f), k, multiset(fields[..j])[f])
    {
      var name := fields[j];
      ghost var before := m';
      if name in hits {
        m' := m'[name := Bump(Get(m', name), k, 1)];
      }
      assert fields[..j + 1] == fields[..j] + [name];
      AddRefStep(m, before, m', hits, k, fields[..j], name);
      j := j + 1;
    }
    assert fields[..j] == fields;
  }

  /** One declared field in the inner loop: counting it once more when the
      reference matches it keeps the loop's account of the fields seen so far. */
  lemma AddRefStep(m: map<string, Tally>, before: map<string, Tally>, after: map<string, Tally>,
                   hits: set<string>, k: DefaultBehavior, seen: seq<string>, name: string)
    requires forall f :: f in before <==> f in m || (f in seen && f in hits)
    requires forall f | f in before && f !in hits :: before[f] == m[f]
    requires forall f | f in before && f in hits :: before[f] == Bump(Get(m, f), k, multiset(seen)[f])
    requires after == if name in hits then before[name := Bump(Get(before, name), k, 1)] else before
    ensures forall f :: f in after <==> f in m || (f in seen + [name] && f in hits)
    ensures forall f | f in after && f !in hits :: after[f] == m[f]
    ensures forall f | f in after && f in hits :: after[f] == Bump(Get(m, f), k, multiset(seen + [name])[f])
  {
    assert multiset(seen + [name]) == multiset(seen) + multiset{name};
  }

  /** One mention loop of the source: for every reference of a list and every
      declared field it matches, one more mention of that kind. */
  method AddMentions(m: map<string, Tally>, refs: seq<FieldRef>, k: DefaultBehavior, fields: seq<string>, groups: Groups)
    returns (m': map<string, Tally>)
    ensures forall f :: f in m' <==> f in m || (f in fields && Mentions(refs, f, fields, groups) > 0)
    ensures forall f | f in m' :: m'[f] == Bump(Get(m, f), k, Mentions(refs, f, fields, groups))
  {
    m' := m;
    var i := 0;
    while i < |refs|
      invariant 0 <= i <= |refs|
      invariant forall f :: f in m' <==> f in m || (f in fields && Mentions(refs[..i], f, fields, groups) > 0)
      invariant forall f | f in m' :: m'[f] == Bump(Get(m, f), k, Mentions(refs[..i], f, fields, groups))
    {
      var r := refs[i];
      ghost var before := m';
      m' := AddRefMentions(m', Denotation(r, fields, groups), k, fields);
      assert refs[..i + 1] == refs[..i] + [r];
      forall f
        ensures f in m' <==> f in m || (f in fields && Mentions(refs[..i + 1], f, fields, groups) > 0)
        ensures f in m' ==> m'[f] == Bump(Get(m, f), k, Mentions(refs[..i + 1], f, fields, groups))
      {
        AddMentionsStep(m, before, m', refs[..i], r, k, fields, groups, f);
      }
      i := i + 1;
    }
    assert refs[..i] == refs;
  }

  /** One more reference in a list's pass: what it adds to a field's entry is
      that reference's share of the list's mentions. */
  lemma AddMentionsStep(m: map<string, Tally>, before: map<string, Tally>, after: map<string, Tally>,
                        done: seq<FieldRef>, r: FieldRef, k: DefaultBehavior, fields: seq<string>, groups: Groups, f: string)
    requires f in before <==> f in m || (f in fields && Mentions(done, f, fields, groups) > 0)
    requires f in before ==> before[f] == Bump(Get(m, f), k, Mentions(done, f, fields, groups))
    requires f in after <==> f in before || (f in fields && f in Denotation(r, fields, groups))
    requires f in after && f !in Denotation(r, fields, groups) ==> after[f] == before[f]
    requires f in after && f in Denotation(r, fields, groups) ==> after[f] == Bump(Get(before, f), k, Occ(f, fields))
    ensures f in after <==> f in m || (f in fields && Mentions(done + [r], f, fields, groups) > 0)
    ensures f in after ==> after[f] == Bump(Get(m, f), k, Mentions(done + [r], f, fields, groups))
  {
    MentionsAppend(done, [r], f, fields, groups);
    assert [r][1..] == [];
    assert Mentions([r], f, fields, groups) == if MatchesField(r, f, fields, groups) then Occ(f, fields) else 0;
    if f in fields {
      assert Occ(f, fields) > 0;
    }
  }

  /** The mention map of a context: every declared field some list names, with
      its mentions. */
  method MentionMap(c: FluentContext, fields: seq<string>, groups: Groups) returns (m: map<string, Tally>)
    ensures forall f :: f in m <==> f in fields && Mentioned(c, f, fields, groups)
    ensures forall f | f in m :: m[f] == TallyOf(c, f, fields, groups)
  {
    m := AddMentions(map[], c.required, Required, fields, groups);
    m := AddMentions(m, c.optional, Optional, fields, groups);
    m := AddMentions(m, c.excluded, Exclude, fields, groups);
    forall f | f in fields {
      NoMentionsIffUnmentioned(c, f, fields, groups);
    }
  }

  /** The conflict diagnostics: one for every entry with more than one
      mention. */
  method Conflicts(name: string, m: map<string, Tally>) returns (ds: set<Diagnostic>)
    ensures ds == set f | f in m && Total(m[f]) > 1 :: Conflict(name, f, Render(m[f]))
  {
    ds := {};
    var keys := m.Keys;
    while keys != {}
      invariant keys <= m.Keys
      invariant ds == set f | f in m.Keys - keys && Total(m[f]) > 1 :: Conflict(name, f, Render(m[f]))
      decreases keys
    {
      var k :| k in keys;
      if Total(m[k]) > 1 {
        ds := ds + {Conflict(name, k, Render(m[k]))};
      }
      keys := keys - {k};
    }
  }

  /** The declared fields without an entry, in declaration order. */
  method MissingFields(c: FluentContext, fields: seq<string>, groups: Groups, m: map<string, Tally>)
    returns (missing: seq<string>)
    requires forall f :: f in m <==> f in fields && Mentioned(c, f, fields, groups)
    ensures missing == Unmentioned(c, fields, fields, groups)
  {
    missing := [];
    var j := 0;
    while j < |fields|
      invariant 0 <= j <= |fields|
      invariant missing == Unmentioned(c, fields[..j], fields, groups)
    {
      assert fields[..j + 1] == fields[..j] + [fields[j]];
      UnmentionedAppend(c, fields[..j], [fields[j]], fields, groups);
      UnmentionedSingle(c, fields[j], fields, groups);
      assert fields[j] in m <==> Mentioned(c, fields[j], fields, groups);
      if fields[j] !in m {
        missing := missing + [fields[j]];
      }
      j := j + 1;
    }
    assert fields[..j] == fields;
  }

  /** Reading the conflicts off the mention map gives the conflicts of the
      specification. */
  lemma ConflictsAgree(c: FluentContext, fields: seq<string>, groups: Groups, m: map<string, Tally>)
    requires forall f :: f in m <==> f in fields && Mentioned(c, f, fields, groups)
    requires forall f | f in m :: m[f] == TallyOf(c, f, fields, groups)
    ensures (set f | f in m && Total(m[f]) > 1 :: Conflict(c.name, f, Render(m[f])))
         == (set f | f in fields && Total(TallyOf(c, f, fields, groups)) > 1 :: Conflict(c.name, f, Render(TallyOf(c, f, fields, groups))))
  {
    forall f | f in fields && Total(TallyOf(c, f, fields, groups)) > 1 ensures f in m {
      NoMentionsIffUnmentioned(c, f, fields, groups);
    }
  }

  /** The diagnostics of one context, computed the way the source does: build
      the mention map, report the entries with more than one mention, then
      collect the unmentioned fields. */
  method ValidateContext(c: FluentContext, fields: seq<string>, groups: Groups, global: Option<DefaultBehavior>)
    returns (ds: set<Diagnostic>)
    ensures ds == ContextDiagnostics(c, fields, groups, global)
  {
    var m := MentionMap(c, fields, groups);
    ds := Conflicts(c.name, m);
    ConflictsAgree(c, fields, groups, m);
    if !(c.defaultBehavior.Some? || global.Some?) {
      var missing := MissingFields(c, fields, groups, m);
      if |missing| > 0 {
        ds := ds + {Missing(c.name, missing)};
      }
    }
  }

  /** `validate_fluent_contexts`: every context's diagnostics together. */
  method ValidateFluentContexts(cfg: VariantList, fields: seq<string>) returns (ds: set<Diagnostic>)
    ensures ds == Diagnostics(cfg.contexts, fields, cfg.fieldGroups, cfg.globalDefault)
  {
    ds := {};
    var i := |cfg.contexts|;
    while i > 0
      invariant 0 <= i <= |cfg.contexts|
      invariant ds == Diagnostics(cfg.contexts[i..], fields, cfg.fieldGroups, cfg.globalDefault)
    {
      i := i - 1;
      var d := ValidateContext(cfg.contexts[i], fields, cfg.fieldGroups, cfg.globalDefault);
      assert cfg.contexts[i..][1..] == cfg.contexts[i + 1..];
      ds := d + ds;
    }
  }

  /** A diagnostic belongs to the whole run exactly when some context reports
      it. */
  lemma {:induction false} DiagnosticsMembership(ctxs: seq<FluentContext>, fields: seq<string>, groups: Groups,
                                                 global: Option<DefaultBehavior>, d: Diagnostic)
    ensures d in Diagnostics(ctxs, fields, groups, global)
        <==> exists i | 0 <= i < |ctxs| :: d in ContextDiagnostics(ctxs[i], fields, groups, global)
  {
    if d in Diagnostics(ctxs, fields, groups, global) {
      ReportedBySome(ctxs, fields, groups, global, d);
    }
    if exists i | 0 <= i < |ctxs| :: d in ContextDiagnostics(ctxs[i], fields, groups, global) {
      var i :| 0 <= i < |ctxs| && d in ContextDiagnostics(ctxs[i], fields, groups, global);
      ReportedByOne(ctxs, fields, groups, global, d, i);
    }
  }

  /** What one context reports, the whole run reports. */
  lemma {:induction false} ReportedByOne(ctxs: seq<FluentContext>, fields: seq<string>, groups: Groups,
                                         global: Option<DefaultBehavior>, d: Diagnostic, i: nat)
    requires i < |ctxs| && d in ContextDiagnostics(ctxs[i], fields, groups, global)
    ensures d in Diagnostics(ctxs, fields, groups, global)
  {
    if i > 0 {
      assert ctxs[1..][i - 1] == ctxs[i];
      ReportedByOne(ctxs[1..], fields, groups, global, d, i - 1);
    }
  }

  /** Whatever the whole run reports, some context reports. */
  lemma {:induction false} ReportedBySome(ctxs: seq<FluentContext>, fields: seq<string>, groups: Groups,
                                          global: Option<DefaultBehavior>, d: Diagnostic)
    requires d in Diagnostics(ctxs, fields, groups, global)
    ensures exists i | 0 <= i < |ctxs| :: d in ContextDiagnostics(ctxs[i], fields, groups, global)
  {
    if d !in ContextDiagnostics(ctxs[0], fields, groups, global) {
      ReportedBySome(ctxs[1..], fields, groups, global, d);
      var i :| 0 <= i < |ctxs[1..]| && d in ContextDiagnostics(ctxs[1..][i], fields, groups, global);
      assert ctxs[i + 1] == ctxs[1..][i];
    }
  }
}

=== FILE: wrappers.dfy ===
/** Failure-compatible wrappers used throughout the model: `Option` for values
    that may be absent and `Result` for the fail-fast errors that the macro
    reports as a `syn::Error`. */
module Wrappers {

  datatype Option<+T> = None | Some(value: T) {

    /** Returns the wrapped value, or `default` when there is none. */
    function GetOr(default: T): T {
      match this
      case Some(v) => v
      case None => default
    }
  }

  /** Either a value or the message of the error that stopped the computation. */
  datatype Result<+T> = Ok(value: T) | Err(error: string) {

    predicate IsFailure() {
      Err?
    }

    function PropagateFailure<U>(): Result<U>
      requires Err?
    {
      Err(error)
    }

    function Extract(): T
      requires Ok?
    {
      value
    }
  }
}
